=== FILE: README.md ===
# LilyGo T4-S3 board support: a Dafny model

This project models the board-support package of the LilyGo T4-S3 (ESP32-S3 with a
450 x 600 RM690B0 AMOLED panel on a quad-SPI bus and a CST226SE touch controller on
I2C). It covers the package's own logic and nothing of the drivers underneath:

- **Lazy bus initialisers** (`Board`): `bsp_i2c_init`, `bsp_i2c_deinit`,
  `bsp_i2c_get_handle` and `bsp_spi_init`. They form a state machine over the
  `i2c_initialized` and `spi_initialized` flags and the `i2c_handle` global.
- **Panel bring-up with unwind** (`Panel`): `bsp_display_new` claims the SPI bus,
  opens a panel IO channel and creates the panel. On any later failure, a failed
  panel constructor included, the `err:` label runs (`lilygo-t4-s3.c:218-226`):
  - it deletes whatever `*ret_panel` and then `*ret_io` hold, and frees the bus;
  - the function writes those outputs only when a constructor succeeds, so the
    label also deletes values the caller passed in and the function did not
    create (`Panel.UnwindDeletesCallerOutputs`);
  - callers must therefore NULL-initialise both outputs, although
    `include/bsp/display.h:73-74` marks them `[out]`. `bsp_display_lcd_init` does
    so (`lilygo-t4-s3.c:275-276`).
- **Arithmetic**:
  - `Brightness`: the percentage-to-level mapping, narrowed to `uint8_t`.
  - `Rounding`: the dirty-rectangle rounding callback `lvgl_round_cb`.
  - `BoardConfig`: the draw-buffer and transfer sizes.
- **The compile-time orientation table** (`DisplayGeometry`): `BSP_LCD_H_RES`,
  `BSP_LCD_V_RES`, `BSP_LCD_SWAP_XY` and `BSP_LCD_MIRROR_X/Y` per rotation build.
- **Touch bring-up** (`Touch`): `bsp_touch_new`.
- **The display-session orchestrator** (`Session`): `bsp_display_lcd_init`,
  `bsp_display_indev_touch_init`, `bsp_display_start_with_config` and
  `bsp_display_start`.

## How the model is built

- **State.** A `Board.Bsp` value holds three things:
  - the C globals (`Globals`: the two flags, `i2c_handle`, `lcd_panel`, `lv_display`,
    `disp_indev_touch` and `tp`);
  - the hardware resources held (`Driver.Held`: I2C buses, the SPI bus, panel IO
    channels, panels and touch controllers);
  - the history of vendor calls issued (`log`).

  Every call goes through `Board.Emit`. It appends the call to the history and applies
  the call's effect on the resources held (`Driver.Effect`).
- **Vendor outcomes are parameters.** Each vendor driver call appears as the outcome
  it would have:
  - `Esp.Alloc` is either `Created` with a non-NULL handle or `Failed` with a non-zero
    `esp_err_t`;
  - status-only calls take an `ErrCode`;
  - an LVGL registration takes the handle it would return, where NULL is failure.

  Operations take these outcomes as arguments (`Panel.PanelDrivers`,
  `Session.Drivers`). The model therefore covers every combination of driver
  successes and failures.
- **Builds are values.** A `BoardConfig.Build` is one Kconfig choice, a rotation and
  a colour format, together with a `BoardConfig.Revision`:
  - `AsWritten` is the code as it stands;
  - `Corrected` is the code with the two defects under "## Findings" repaired.

  Every operation that depends on the build works for both revisions. Its contract
  says where they differ. The display-start configuration `bsp_display_cfg_t` is a
  `BoardConfig.DisplayCfg`.
- **Error-check macros.** `BSP_ERROR_CHECK_RETURN_ERR`, `BSP_ERROR_CHECK_RETURN_NULL`
  and `BSP_NULL_CHECK` are modelled in the configuration where they return the error
  code or NULL, not the one where they abort.
- **C `assert`s.**
  - Some become preconditions: `config != NULL && max_transfer_sz > 0` in
    `bsp_display_new`, and `cfg != NULL` in `bsp_display_lcd_init` and
    `bsp_display_start_with_config`. Configurations are passed by value here, so only the size
    check remains.
  - `assert(lv_display)` after `lvgl_port_add_disp` can fire, so it becomes the
    `Esp.Completion.Aborted` outcome.
  - `assert(tp)` always holds, because a created handle is never NULL.
- **Traces.** The orchestrator's properties are stated over `Board.Since(s, s')`, the
  calls issued between two states.
  - `Session.AllMatch` says every configuration handed to a driver agrees with the
    build.
  - `Session.NoRelease` says no resource is given back.
  - `Session.NoTouchCall` says touch is neither created nor registered.
  - `Session.TouchOnDisplay` says touch input is attached to the registered display.
- **Held resources follow from the history.** `Board.Tracks(s)` says the resources
  held are exactly those the call history leaves held (`hw == HeldBy(log)`).
  - It holds at power-on (`Board.PowerOnTracks`).
  - `Board.EmitTracks` shows one call keeps it.
  - Every operation that issues calls states `Tracks(s) ==> Tracks(r.state)`: the bus
    initialisers, the panel and touch bring-ups, brightness, and every stage of the
    session start.
  - `Driver.NoReleaseKeepsHeld` shows that a stretch of history without a release
    only adds to what is held.
  - `Board.NoReleaseSinceKeepsHeld` carries this over to any two such states. It is a
    corollary offered to callers. The session stages state their own `Within` clauses
    directly, without needing `Tracks`.

### Where the header and the code differ

- `include/bsp/display.h:94-105` documents `ESP_ERR_INVALID_ARG` for
  `bsp_display_brightness_set`. `lilygo-t4-s3.c:152-155` does no range check and
  returns whatever the panel driver returns:
  - 150 % gives level 126 and -5 % gives level 244
    (`Brightness.LevelOutOfRangeWraps`);
  - the command goes to whatever `lcd_panel` holds, NULL included.

  The model follows the code.

## Model

| member | source | states |
|---|---|---|
| DisplayGeometry.Table | include/bsp/display.h:19-42 | the axes are swapped exactly in the 90 and 270 degree builds; swapped builds report 600 x 450 (the hardware resolution exchanged); the others report H_RES 450 with V_RES equal to H_RES; mirror X exactly at 90, mirror Y exactly at 270, never both |
| DisplayGeometry.Rotation90Build | include/bsp/display.h:23-34 | the 90 degree build is 600 x 450, swap 1, mirror_x 1, mirror_y 0 |
| DisplayGeometry.Rotation270Build | include/bsp/display.h:23-31 | the 270 degree build is 600 x 450, swap 1, mirror_x 0, mirror_y 1 |
| DisplayGeometry.NonQuarterTurnBuildsAreSquare | include/bsp/display.h:36-42 | the unrotated and 180 degree builds coincide, have all flags 0, and report 450 x 450, so V_RES is not the panel's 600 and the 90 degree width (600) is not the unrotated height |
| DisplayGeometry.IntendedTable | include/bsp/display.h:19-42 | the table with V_RES of the fall-through branch set to V_HW_RES: the axes are swapped exactly in the 90 and 270 degree builds, and those builds are unchanged |
| DisplayGeometry.IntendedTableDescribesPanel | include/bsp/display.h:19-21 | with the intended table the unrotated and 180 degree builds report the 450 x 600 panel, a quarter turn exchanges width and height, and every build covers the panel's 270000 pixels |
| BoardConfig.DrawBuffSizeOfBuild | include/bsp/lilygo-t4-s3.h:202-203 | BSP_LCD_DRAW_BUFF_SIZE (H_RES*V_RES/10 pixels) is 27000 in the 90/270 builds and 20250 in the others as written, 27000 in every corrected build, hence always positive |
| BoardConfig.TransferSize | lilygo-t4-s3.c:277-279 | the transfer size handed to panel bring-up is positive, fits a signed `int`, and is the draw buffer's size in bytes (bytes times 8 equals pixels times bits per pixel) |
| BoardConfig.DefaultDisplayCfg | lilygo-t4-s3.c:327-338 | the default start configuration uses the port's default settings, a draw buffer of BSP_LCD_DRAW_BUFF_SIZE pixels (positive), double buffering, DMA-capable memory and no PSRAM |
| Rounding.Round | lilygo-t4-s3.c:253-270 | the padded area has even origin, even width and even height, contains the original area, and moves each edge by at most one pixel |
| Rounding.RoundIdempotent | lilygo-t4-s3.c:253-270 | padding an already padded area changes nothing |
| Rounding.RoundFixesExactlyAligned | lilygo-t4-s3.c:253-270 | an area is left unchanged if and only if it already has even origin and even extent |
| Rounding.RoundIsSmallestAlignedCover | lilygo-t4-s3.c:253-270 | every aligned area that contains the original also contains the padded one: the padding is minimal |
| Rounding.RoundStaysInInt32 | lilygo-t4-s3.c:253-270 | padding an area with 32-bit coordinates never leaves the 32-bit range |
| Driver.Effect | lilygo-t4-s3.c:196-226 | a call that gives nothing back never loses a held resource, and a deletion or bus free never gains one |
| Driver.NoReleaseKeepsHeld | lilygo-t4-s3.c:165-216 | a stretch of calls without a deletion or bus free only adds to the resources held |
| Board.PowerOnTracks | lilygo-t4-s3.c:30-46 | at power-on nothing is held and nothing has been called, so the resources held are those the empty history leaves |
| Board.EmitTracks | lilygo-t4-s3.c:165-226 | issuing a call keeps the resources held equal to those the call history leaves held |
| Board.NoReleaseSinceKeepsHeld | lilygo-t4-s3.c:273-352 | between two states whose resources follow their histories, calls that release nothing only add to what is held |
| Board.I2cInit | lilygo-t4-s3.c:49-73 | once initialised it returns ESP_OK and calls nothing; otherwise it calls `i2c_new_master_bus` once; it returns ESP_OK exactly when the flag ends set, the flag is set only when the driver succeeds, a failure returns the driver's code with the flag clear and the handle unchanged, a flagged bus is a held bus before and after, and the resources held keep following the history |
| Board.I2cDeinit | lilygo-t4-s3.c:75-79 | it always calls `i2c_del_master_bus` on `i2c_handle`, even if never initialised; it clears the flag only when the delete succeeds, never resets `i2c_handle`, returns the driver's code, keeps a flagged bus held and keeps the resources held following the history |
| Board.I2cGetHandle | lilygo-t4-s3.c:81-84 | it runs the initialiser, drops its result, and returns whatever `i2c_handle` then holds, the stale handle if initialisation failed |
| Board.I2cInitTwice | lilygo-t4-s3.c:49-53 | after a successful initialisation a second one, and a handle request, return at once with the same handle and call nothing |
| Board.StaleHandleAfterDeinit | lilygo-t4-s3.c:75-84 | after a successful deinit whose re-initialisation fails, `bsp_i2c_get_handle` returns the deleted bus, and a second deinit passes that dead handle to the driver |
| Board.SpiInit | lilygo-t4-s3.c:86-111 | once initialised it returns ESP_OK and calls nothing; otherwise it calls `spi_bus_initialize` once and returns its code; ESP_OK exactly when the flag ends set; no other global changes, and the only resource that can change hands is the SPI bus, claimed on a first successful call; the bus is flagged exactly when it is held, before and after; the resources held keep following the history |
| Board.SpiInitIgnoresTransferSize | lilygo-t4-s3.c:86-111 | calls that request different transfer sizes behave identically |
| Brightness.Level | lilygo-t4-s3.c:152-154 | for 0..100 % the level is `percent*255/100` rounded down, so it lies in 0..255 |
| Brightness.LevelAnchors | lilygo-t4-s3.c:152-154 | 0 % gives 0, 50 % gives 127, 100 % gives 255 |
| Brightness.LevelMonotone | lilygo-t4-s3.c:152-154 | within 0..100 % a higher percentage never gives a lower level |
| Brightness.LevelExtremes | lilygo-t4-s3.c:152-154 | within 0..100 % the level is 0 exactly at 0 % and 255 exactly at 100 % |
| Brightness.LevelOutOfRangeWraps | lilygo-t4-s3.c:152-154 | there is no range check: 150 % wraps to 126 and -5 % to 244 |
| Brightness.BrightnessInit | include/bsp/display.h:83-92 | brightness initialisation always succeeds |
| Brightness.BrightnessSet | lilygo-t4-s3.c:152-155 | exactly one command goes to the panel recorded in `lcd_panel`, with the mapped level; the driver's code is returned, no global or resource changes, and the resources held keep following the history |
| Brightness.BacklightOn | lilygo-t4-s3.c:161-163 | backlight on is brightness 100 %, which sends level 255 |
| Brightness.BacklightOff | lilygo-t4-s3.c:157-159 | backlight off is brightness 0 %, which sends level 0 |
| Panel.Unwind | lilygo-t4-s3.c:218-226 | the `err:` label deletes the panel if non-NULL, then the IO channel if non-NULL, then frees the bus, in that order; the deleted handles are no longer held; the bus stays held only if the free fails; nothing is gained, no global changes, and the resources held keep following the history |
| Panel.CreatePanel | lilygo-t4-s3.c:211-226 | on success `lcd_panel` becomes the new panel, held, and reset and init follow; on failure the unwind follows the panel constructor with the IO channel released and `lcd_panel` unchanged |
| Panel.CreateIo | lilygo-t4-s3.c:196-226 | the bring-up after the bus claim succeeds exactly when both constructors do, and otherwise returns the first failing constructor's code |
| Panel.CreateIoSucceeds | lilygo-t4-s3.c:196-216 | a successful bring-up after the bus claim returns and holds both handles, records `lcd_panel`, and issues exactly IO channel, panel, reset, init |
| Panel.CreateIoUnwinds | lilygo-t4-s3.c:196-226 | a failed bring-up after the bus claim issues the constructor attempts and then the unwind, leaves the globals unchanged, releases a created IO channel, and returns `*ret_panel` as it was |
| Panel.DisplayNew | lilygo-t4-s3.c:165-227 | as written: success exactly when the bus is ready and both constructors succeed; a failure after the bus claim returns the code of the constructor that failed; a failed bus claim returns at once having called only `spi_bus_initialize`; the resources held keep following the history |
| Panel.DisplayNewSucceeds | include/bsp/display.h:57-81 | on success both handles are non-NULL and held, `lcd_panel` is recorded, the bus is flagged, and held when it was held before or was claimed by this call, nothing is released, and the last calls are reset and init with no display-on command |
| Panel.DisplayNewUnwinds | lilygo-t4-s3.c:196-226 | a failure after the bus claim releases the new IO channel, frees the bus, leaves the I2C buses and `lcd_panel` unchanged and leaves `spi_initialized` set |
| Panel.UnwindDeletesCallerOutputs | lilygo-t4-s3.c:196-226 | with live handles in `*ret_panel` and `*ret_io` on entry and a failed IO channel, whether the bus was claimed by this call or flagged before, the unwind deletes the caller's panel and IO channel before freeing the bus, and returns them unchanged, no longer held |
| Panel.UnwindFromNullOutputs | lilygo-t4-s3.c:218-226 | with NULL-initialised outputs, after a bus claim by this call or on a bus flagged before, a failed IO channel frees only the bus, and a failed panel deletes the IO channel once before freeing the bus |
| Panel.FailedBringUpLeavesSpiFlagSet | lilygo-t4-s3.c:196-226 | from power-on, a failed IO channel makes the bring-up free the bus yet leave `spi_initialized` set, so the flag no longer tells the truth |
| Panel.FlaggedBusIsNotClaimed | lilygo-t4-s3.c:86-90 | on a bus flagged initialised the bring-up's first call opens the IO channel: `spi_bus_initialize` is not called |
| Panel.RetryAfterFailedBringUpUsesFreedBus | lilygo-t4-s3.c:86-90 | after that failure the bus is not held, yet a retry skips `spi_bus_initialize` and opens the IO channel at once |
| Panel.DisplayNewCorrected | lilygo-t4-s3.c:165-227 | the bring-up with `spi_initialized` cleared once `spi_bus_free` succeeds: the same outcome, calls and success behaviour; a failure after the claim returns the failing constructor's code; after an unwind the flag is set exactly when the free failed, a bus still held is still flagged, and a freed bus is flagged clear; the new IO channel is released and `*ret_panel` is unchanged; the SPI bus is flagged exactly when held, before and after |
| Panel.BringUp | lilygo-t4-s3.c:165-227 | the bring-up of either revision: both agree on outcome, calls and success, and a failure after the claim returns the failing constructor's code; after an unwind the flag is set as written once the bus was claimed, corrected only when the free failed; the flags stay truthful on success, and on every path when corrected |
| Touch.TouchNew | lilygo-t4-s3.c:229-251 | a failed I2C initialisation returns its code without touching the controller; otherwise the controller is created on `i2c_handle` with the display's resolution, swap and mirror flags and held on success; `*ret_touch` changes only on success; only the I2C globals change, flagged buses stay held, and the resources held keep following the history |
| Touch.Rotation90TouchFlags | lilygo-t4-s3.c:234-248 | in the 90 degree build the controller gets x_max 600, y_max 450, swap, mirror X only |
| Session.FailedBringUpMatches | lilygo-t4-s3.c:273-280 | a failed bring-up from the display start hands the panel driver the build's bits per pixel and never registers a display or touches touch input |
| Session.RegisteredMatches | lilygo-t4-s3.c:282-305 | a successful display start registers a display whose resolution, swap and mirror flags, colour format and buffering match the build and the caller's configuration, and releases nothing |
| Session.LcdInitCallsMatch | lilygo-t4-s3.c:273-312 | every configuration the display start hands a driver agrees with the build, it never involves touch, and once the panel is up it gives nothing back |
| Session.RegisterDisplay | lilygo-t4-s3.c:282-309 | the display is switched on before it is registered; `lv_display` records the registration; the rounding callback is attached unless the registration is NULL, which fails the `assert` |
| Session.DisplayLcdInit | lilygo-t4-s3.c:273-312 | the display start returns NULL when the bring-up fails, aborts on a NULL registration, and otherwise returns the registration; once the panel is up it releases nothing, holds the panel and IO channel, and records the panel and the registration; a failed bring-up changes only `spi_initialized`, which as written stays set once the bus was claimed, even on a freed bus; the flags stay truthful when the panel comes up, and always when corrected; the resources held keep following the history |
| Session.IndevTouchInit | lilygo-t4-s3.c:314-325 | `tp` gets the new controller only when it is created; the input device is NULL when touch bring-up or registration fails; the registration attaches the controller to the given display; nothing is released; the resources held keep following the history |
| Session.AttachTouch | lilygo-t4-s3.c:347-349 | on the registered display, touch success records `tp` and `disp_indev_touch` and returns the display, a failure returns NULL; nothing is released; the resources held keep following the history |
| Session.ShowDisplay | lilygo-t4-s3.c:345-351 | display then touch: touch is attempted only on a registered display and attached to it; a failed bring-up leaves `lv_display` NULL and `spi_initialized` as the revision's bring-up leaves it; once the panel is up nothing is given back; the flags stay truthful when the panel comes up, and always when corrected |
| Session.StartWithConfig | lilygo-t4-s3.c:341-352 | the LVGL port is initialised first and its failure returns NULL at once; the result is the display exactly when every step succeeds, NULL on any other failure, an abort on a NULL registration; on success every global is recorded; all configurations agree with the build; no touch without a registered display; a failed bring-up leaves `lv_display` NULL and, as written, `spi_initialized` set once the bus was claimed; once the panel is up no earlier step is undone; the flags stay truthful unless a bring-up as written fails; the resources held keep following the history |
| Session.Start | lilygo-t4-s3.c:327-339 | the default start registers a display with a BSP_LCD_DRAW_BUFF_SIZE-pixel, double, DMA-capable, non-PSRAM buffer at the build's resolution, with the same outcomes as the configurable start; the flags stay truthful unless a bring-up as written fails |

## Left out

- SPIFFS mount and unmount (`lilygo-t4-s3.c:113-142`): filesystem I/O that only forwards return codes.
- `bsp_display_lock` and `bsp_display_unlock`: pass-throughs to the LVGL mutex, whose only purpose is concurrency.
- What the vendor drivers do internally (ESP-IDF I2C and SPI, `esp_lcd`, the RM690B0 and CST226SE drivers, the LVGL port): each call is an abstract outcome passed in as a parameter.
- A failed constructor is taken to leave its output handle unchanged, and deleting a panel or an IO channel is taken to succeed. The package ignores those deletion results.
- The aborting configuration of the error-check macros. Only the configuration that returns an error code or NULL is modelled.
- `ESP_LOG*` calls, GPIO numbers, the pixel clock, the command and parameter widths, and the touch controller's reset and interrupt levels: constants with no behaviour.
- `lv_area_get_width` and `lv_area_get_height` are taken to be `x2 - x1 + 1` and `y2 - y1 + 1`, as in LVGL. C's `%` on an odd negative value is non-zero, like Dafny's, so the oddness tests agree.
- Brightness.Level: requires that `percent * 255` fits a signed `int`, because C leaves the overflow undefined.
- Rounding.Round: computes coordinates over unbounded integers. `Rounding.RoundStaysInInt32` shows the result stays in the 32-bit range.
- Session.DisplayLcdInit: in the as-written revision the flags are promised truthful only when the panel comes up, because a failed bring-up leaves `spi_initialized` set on a freed bus (see "## Findings").
- Session.ShowDisplay: the same limit on truthful flags in the as-written revision, for the same reason.
- Session.Start: the same limit on truthful flags in the as-written revision, for the same reason.
- Session.StartWithConfig: the same limit on truthful flags in the as-written revision, for the same reason.
- Session.StartWithConfig: `bsp_display_brightness_init` cannot fail, so the `NULL` return after it is never taken and has no branch in the model.

## Findings

| source | as written | input that shows it | evidently intended | confidence | as-written member | corrected member |
|---|---|---|---|---|---|---|
| lilygo-t4-s3.c:218-226 | the `err:` label of `bsp_display_new` calls `spi_bus_free` but leaves `spi_initialized` true, so a retry skips `spi_bus_initialize` and uses a bus nobody holds | from power-on: `spi_bus_initialize` succeeds, `esp_lcd_new_panel_io_spi` fails, `spi_bus_free` succeeds; a second `bsp_display_new` then opens an IO channel on the freed bus | clear `spi_initialized` when `spi_bus_free` succeeds, so the bus is flagged exactly when it is held | high (not executed) | Panel.FailedBringUpLeavesSpiFlagSet | Panel.DisplayNewCorrected |
| include/bsp/display.h:36-42 | the fall-through branch (unrotated and 180 degree builds) defines `BSP_LCD_V_RES` as `BSP_LCD_H_RES`, so those builds report 450 x 450 | the unrotated build: H_RES 450, V_RES 450, a draw buffer of 20250 pixels; the 90 degree build reports 600 x 450, which is not the unrotated size exchanged | `BSP_LCD_V_RES` defined as `BSP_LCD_V_HW_RES`, as for the 450 x 600 panel of `include/bsp/display.h:19-21` and `include/bsp/lilygo-t4-s3.h:189`; the draw buffer is then 27000 pixels in every build | high (not executed) | DisplayGeometry.NonQuarterTurnBuildsAreSquare | DisplayGeometry.IntendedTableDescribesPanel |

Both corrections take effect through `BoardConfig.Revision`:
- a build with revision `AsWritten` models the code as it stands: the table of
  `DisplayGeometry.Table` and the bring-up of `Panel.DisplayNew`;
- a build with revision `Corrected` uses `DisplayGeometry.IntendedTable` for its
  resolution, draw buffer, touch configuration and display registration, and
  `Panel.DisplayNewCorrected` for its panel bring-up.

`Panel.BringUp` selects the bring-up, and the session start in `Session` calls it.

=== FILE: board.dfy ===
/** The package's process-wide state and its two lazily initialised buses: the I2C
    bus shared with the touch controller and the quad-SPI bus of the display. */
module Board {
  import opened Esp
  import opened Driver

  /** The file-scope globals of the package. */
  datatype Globals = Globals(
    i2cInitialized: bool,
    i2cHandle: Handle,
    spiInitialized: bool,
    lcdPanel: Handle,
    lvDisplay: Handle,
    dispIndevTouch: Handle,
    tp: Handle)

  /** The globals, the resources the drivers hold, and the history of vendor calls
      made so far. */
  datatype Bsp = Bsp(g: Globals, hw: Held, log: seq<Call>)

  /** The globals' initial values; nothing has been called yet. */
  const PowerOn: Bsp := Bsp(Globals(false, Null, false, Null, Null, Null, Null), Nothing, [])

  /** Issue one vendor call. */
  function Emit(s: Bsp, c: Call): (s': Bsp)
    ensures s'.log == s.log + [c]
    ensures s'.hw == Effect(s.hw, c)
    ensures s'.g == s.g
  {
    Bsp(s.g, Effect(s.hw, c), s.log + [c])
  }

  /** The calls issued on the way from `s` to `s'`. */
  function Since(s: Bsp, s': Bsp): seq<Call>
    requires s.log <= s'.log
  {
    s'.log[|s.log|..]
  }

  /** The calls since `s0` are those up to `s1` followed by those after. */
  lemma SinceSplit(s0: Bsp, s1: Bsp, s2: Bsp)
    requires s0.log <= s1.log <= s2.log
    ensures s0.log <= s2.log && Since(s0, s2) == Since(s0, s1) + Since(s1, s2)
  {
  }

  /** A history extended by `calls` gained exactly `calls`. */
  lemma SinceExtension(s: Bsp, s': Bsp, calls: seq<Call>)
    requires s'.log == s.log + calls
    ensures s.log <= s'.log && Since(s, s') == calls
  {
  }

  /** The resources held are exactly those the call history leaves held. */
  predicate Tracks(s: Bsp) {
    s.hw == HeldBy(s.log)
  }

  /** At power-on nothing is held and nothing has been called. */
  lemma PowerOnTracks()
    ensures Tracks(PowerOn)
  {
  }

  /** Issuing calls keeps the held resources in step with the history. */
  lemma EmitTracks(s: Bsp, c: Call)
    ensures Tracks(s) ==> Tracks(Emit(s, c))
  {
    HeldByAppendOne(s.log, c);
  }

  /** Between two states whose resources follow their histories, a stretch of calls
      that releases nothing only adds to what is held. */
  lemma NoReleaseSinceKeepsHeld(s: Bsp, s': Bsp)
    requires Tracks(s) && Tracks(s') && s.log <= s'.log
    requires forall c | c in Since(s, s') :: !Releases(c)
    ensures Within(s.hw, s'.hw)
  {
    var ext := Since(s, s');
    assert s'.log == s.log + ext;
    assert forall i | 0 <= i < |ext| :: !Releases(ext[i]) by {
      forall i | 0 <= i < |ext| ensures !Releases(ext[i]) {
        assert ext[i] in ext;
      }
    }
    NoReleaseKeepsHeld(s.log, ext);
  }

  /** The initialisation flags tell the truth: an I2C bus flagged initialised is
      held, and the SPI bus is flagged initialised exactly when it is held. */
  predicate Honest(s: Bsp) {
    && (s.g.i2cInitialized ==> s.g.i2cHandle in s.hw.i2cBuses)
    && (s.g.spiInitialized <==> s.hw.spiBus)
  }

  /** A state and an `esp_err_t`. */
  datatype Step = Step(state: Bsp, err: ErrCode)

  /** A state and a returned handle. */
  datatype HandleStep = HandleStep(state: Bsp, handle: Handle)

  /** `bsp_i2c_init`, where `out` is what `i2c_new_master_bus` would do. */
  function I2cInit(s: Bsp, out: Alloc): (r: Step)
    ensures s.g.i2cInitialized ==> r == Step(s, Ok)
    ensures !s.g.i2cInitialized ==> r.state.log == s.log + [I2cNewMasterBus(out)]
    ensures r.err == Ok <==> r.state.g.i2cInitialized
    ensures r.state.g.i2cInitialized <==> s.g.i2cInitialized || out.Created?
    ensures !s.g.i2cInitialized && out.Failed? ==> r.err == out.err && r.state.g.i2cHandle == s.g.i2cHandle
    ensures !s.g.i2cInitialized && out.Created? ==> r.state.g.i2cHandle == out.handle
    ensures r.state.g == s.g.(i2cInitialized := r.state.g.i2cInitialized, i2cHandle := r.state.g.i2cHandle)
    ensures Honest(s) ==> Honest(r.state)
    ensures Tracks(s) ==> Tracks(r.state)
  {
    if s.g.i2cInitialized then Step(s, Ok)
    else
      EmitTracks(s, I2cNewMasterBus(out));
      var s1 := Emit(s, I2cNewMasterBus(out));
      match out
      case Failed(e) => Step(s1, e)
      case Created(bus) => Step(s1.(g := s1.g.(i2cHandle := bus, i2cInitialized := true)), Ok)
  }

  /** `bsp_i2c_deinit`, where `err` is what `i2c_del_master_bus` returns. */
  function I2cDeinit(s: Bsp, err: ErrCode): (r: Step)
    ensures r.state.log == s.log + [I2cDelMasterBus(s.g.i2cHandle, err)]
    ensures r.err == err
    ensures r.state.g.i2cInitialized <==> s.g.i2cInitialized && err != Ok
    ensures r.state.g.i2cHandle == s.g.i2cHandle
    ensures r.state.g == s.g.(i2cInitialized := r.state.g.i2cInitialized)
    ensures Honest(s) ==> Honest(r.state)
    ensures Tracks(s) ==> Tracks(r.state)
  {
    EmitTracks(s, I2cDelMasterBus(s.g.i2cHandle, err));
    var s1 := Emit(s, I2cDelMasterBus(s.g.i2cHandle, err));
    if err != Ok then Step(s1, err)
    else Step(s1.(g := s1.g.(i2cInitialized := false)), Ok)
  }

  /** `bsp_i2c_get_handle`: initialise if need be, drop the result, return the global. */
  function I2cGetHandle(s: Bsp, out: Alloc): (r: HandleStep)
    ensures r.state == I2cInit(s, out).state
    ensures r.handle == r.state.g.i2cHandle
    ensures s.g.i2cInitialized ==> r == HandleStep(s, s.g.i2cHandle)
    ensures !s.g.i2cInitialized && out.Failed? ==> r.handle == s.g.i2cHandle
  {
    var init := I2cInit(s, out);
    HandleStep(init.state, init.state.g.i2cHandle)
  }

  /** A second initialisation yields the same handle and calls nothing. */
  lemma I2cInitTwice(s: Bsp, out: Alloc, out': Alloc)
    requires I2cInit(s, out).err == Ok
    ensures var s1 := I2cInit(s, out).state;
      I2cInit(s1, out') == Step(s1, Ok) && I2cGetHandle(s1, out') == HandleStep(s1, s1.g.i2cHandle)
  {
  }

  /** After a successful deinit, `bsp_i2c_get_handle` whose re-initialisation fails
      returns the deleted bus handle, and a second deinit passes that dead handle
      to the driver again. */
  lemma StaleHandleAfterDeinit(s: Bsp, bus: Live, fail: Failure)
    requires s.g.i2cInitialized && s.g.i2cHandle == bus && Honest(s)
    ensures var s1 := I2cDeinit(s, Ok).state;
      && bus !in s1.hw.i2cBuses
      && I2cGetHandle(s1, Failed(fail)).handle == bus
      && I2cDeinit(s1, fail).state.log == s1.log + [I2cDelMasterBus(bus, fail)]
  {
  }

  /** `bsp_spi_init`, where `err` is what `spi_bus_initialize` returns. The requested
      transfer size is accepted but never used. */
  function SpiInit(s: Bsp, maxTransferSz: Uint32, err: ErrCode): (r: Step)
    ensures s.g.spiInitialized ==> r == Step(s, Ok)
    ensures !s.g.spiInitialized ==> r.state.log == s.log + [SpiBusInitialize(err)] && r.err == err
    ensures r.err == Ok <==> r.state.g.spiInitialized
    ensures r.state.g == s.g.(spiInitialized := r.state.g.spiInitialized)
    // only the SPI bus can change hands, and only on a first successful claim
    ensures r.state.hw == s.hw.(spiBus := s.hw.spiBus || (!s.g.spiInitialized && err == Ok))
    ensures Honest(s) ==> Honest(r.state)
    ensures Tracks(s) ==> Tracks(r.state)
  {
    if s.g.spiInitialized then Step(s, Ok)
    else
      EmitTracks(s, SpiBusInitialize(err));
      var s1 := Emit(s, SpiBusInitialize(err));
      if err != Ok then Step(s1, err)
      else Step(s1.(g := s1.g.(spiInitialized := true)), Ok)
  }

  /** Calls that ask for different transfer sizes cannot be told apart. */
  lemma SpiInitIgnoresTransferSize(s: Bsp, a: Uint32, b: Uint32, err: ErrCode)
    ensures SpiInit(s, a, err) == SpiInit(s, b, err)
  {
  }
}

=== FILE: board_config.dfy ===
/** Build options and configuration records of the board header: the draw-buffer
    size, the colour format and the display-session configuration. */
module BoardConfig {
  import opened Esp
  import opened DisplayGeometry

  /** The Kconfig colour-format choice (RGB565 or RGB888). */
  datatype ColorFormat = Rgb565 | Rgb888

  function BitsPerPixel(c: ColorFormat): nat {
    match c
    case Rgb565 => 16
    case Rgb888 => 24
  }

  /** Which revision of the package the firmware is built from: the code as written,
      or the code with the two defects corrected (V_RES of the unrotated builds, and
      the SPI flag left set by a failed panel bring-up). */
  datatype Revision = AsWritten | Corrected

  /** Everything fixed at compile time that the display code depends on. */
  datatype Build = Build(rotation: Rotation, color: ColorFormat, revision: Revision) {
    /** The resolution and orientation macros of this build. */
    function Geometry(): (o: Orientation)
      ensures revision == AsWritten ==> o == Table(rotation)
      ensures revision == Corrected ==> o == IntendedTable(rotation)
    {
      if revision == Corrected then IntendedTable(rotation) else Table(rotation)
    }
  }

  /** BSP_LCD_DRAW_BUFF_SIZE, in pixels: a tenth of the screen, rounded down. */
  function DrawBuffSize(o: Orientation): nat {
    o.hRes * o.vRes / 10
  }

  /** BSP_LCD_DRAW_BUFF_DOUBLE: two draw buffers by default. */
  const DrawBuffDouble: bool := true

  /** As written, the draw buffer holds 20250 pixels in the square (non-quarter-turn)
      builds and 27000 in the 90 and 270 degree builds; with the intended table it is
      27000 in every build. Either way it is not empty. */
  lemma DrawBuffSizeOfBuild(b: Build)
    ensures DrawBuffSize(b.Geometry()) == if QuarterTurn(b.rotation) || b.revision == Corrected then 27000 else 20250
    ensures DrawBuffSize(b.Geometry()) > 0
  {
  }

  /** The `max_transfer_sz` the display-session start hands to panel bring-up:
      the draw buffer's size in bytes. */
  function TransferSize(b: Build): (n: Int32)
    ensures n > 0
    ensures n * 8 == DrawBuffSize(b.Geometry()) * BitsPerPixel(b.color)
  {
    DrawBuffSizeOfBuild(b);
    DrawBuffSize(b.Geometry()) * (BitsPerPixel(b.color) / 8)
  }

  /** `lvgl_port_cfg_t`: task priority, stack size and the like, opaque to this layer. */
  datatype PortCfg = PortInitConfig | PortCustomConfig(settings: seq<int>)

  /** `bsp_display_cfg_t`. `bufferSize` counts pixels, not bytes; DMA and PSRAM placement
      are independent one-bit flags. */
  datatype DisplayCfg = DisplayCfg(
    portCfg: PortCfg,
    bufferSize: Uint32,
    doubleBuffer: bool,
    buffDma: bool,
    buffSpiram: bool)

  /** The configuration `bsp_display_start` passes on. */
  function DefaultDisplayCfg(b: Build): (cfg: DisplayCfg)
    ensures cfg.portCfg == PortInitConfig
    ensures cfg.bufferSize == DrawBuffSize(b.Geometry()) > 0
    ensures cfg.doubleBuffer && cfg.buffDma && !cfg.buffSpiram
  {
    DrawBuffSizeOfBuild(b);
    DisplayCfg(PortInitConfig, DrawBuffSize(b.Geometry()), DrawBuffDouble, true, false)
  }

  /** `bsp_display_config_t`: the transfer size, in bytes, held in a signed `int`. */
  datatype DisplayConfig = DisplayConfig(maxTransferSz: Int32)
}

=== FILE: brightness.dfy ===
/** The brightness controller: a percentage mapped to the panel's 8-bit level and
    sent to the panel recorded by panel bring-up. */
module Brightness {
  import opened Esp
  import opened Driver
  import opened Board

  /** C integer division, which truncates toward zero. */
  function TruncDiv(a: int, b: int): int
    requires b > 0
  {
    if a >= 0 then a / b else -((-a) / b)
  }

  /** `brightness_percent * 255 / 100` in `int`, then narrowed to `uint8_t` (modulo 256).
      The product must not overflow `int`, which C leaves undefined. */
  function Level(percent: int): (level: Byte)
    requires IsInt32(percent * 255)
    ensures 0 <= percent <= 100 ==> level * 100 <= percent * 255 < level * 100 + 100
  {
    TruncDiv(percent * 255, 100) % 0x100
  }

  /** The documented anchor points: 0 %, 50 % and 100 %. */
  lemma LevelAnchors()
    ensures Level(0) == 0 && Level(50) == 127 && Level(100) == 255
  {
  }

  /** Within 0..100 a higher percentage never gives a dimmer level. */
  lemma LevelMonotone(a: int, b: int)
    requires 0 <= a <= b <= 100
    ensures Level(a) <= Level(b)
  {
  }

  /** Within 0..100 the level is dark only at 0 % and full only at 100 %. */
  lemma LevelExtremes(p: int)
    requires 0 <= p <= 100
    ensures Level(p) == 0 <==> p == 0
    ensures Level(p) == 255 <==> p == 100
  {
  }

  /** There is no range check: 150 % wraps to level 126 and -5 % to level 244. */
  lemma LevelOutOfRangeWraps()
    ensures Level(150) == 126
    ensures Level(-5) == 244
  {
  }

  /** `bsp_display_brightness_init`: nothing to do on an AMOLED panel. */
  function BrightnessInit(): (err: ErrCode)
    ensures err == Ok
  {
    Ok
  }

  /** `bsp_display_brightness_set`, where `err` is what the panel driver returns. One
      command goes to whatever panel is recorded, even NULL before any bring-up. */
  function BrightnessSet(s: Bsp, percent: int, err: ErrCode): (r: Step)
    requires IsInt32(percent * 255)
    ensures r.err == err
    ensures r.state.g == s.g && r.state.hw == s.hw
    ensures |r.state.log| == |s.log| + 1 && s.log <= r.state.log
    ensures var c := r.state.log[|s.log|];
      && c.SetBrightness? && c.panel == s.g.lcdPanel && c.err == err
      && (0 <= percent <= 100 ==> c.level * 100 <= percent * 255 < c.level * 100 + 100)
    ensures Tracks(s) ==> Tracks(r.state)
  {
    EmitTracks(s, SetBrightness(s.g.lcdPanel, Level(percent), err));
    Step(Emit(s, SetBrightness(s.g.lcdPanel, Level(percent), err)), err)
  }

  /** `bsp_display_backlight_on`: full level. */
  function BacklightOn(s: Bsp, err: ErrCode): (r: Step)
    ensures r == BrightnessSet(s, 100, err)
    ensures r.state.log == s.log + [SetBrightness(s.g.lcdPanel, 255, err)]
  {
    BrightnessSet(s, 100, err)
  }

  /** `bsp_display_backlight_off`: level zero. */
  function BacklightOff(s: Bsp, err: ErrCode): (r: Step)
    ensures r == BrightnessSet(s, 0, err)
    ensures r.state.log == s.log + [SetBrightness(s.g.lcdPanel, 0, err)]
  {
    BrightnessSet(s, 0, err)
  }
}

=== FILE: display_geometry.dfy ===
/** The compile-time resolution and orientation table of the display header. */
module DisplayGeometry {
  import opened Esp

  /** Panel resolution when the screen is not rotated. */
  const HHwRes: nat := 450
  const VHwRes: nat := 600

  /** The Kconfig rotation choice the firmware is built with. */
  datatype Rotation = Rotation0 | Rotation90 | Rotation180 | Rotation270

  /** The macros BSP_LCD_H_RES, BSP_LCD_V_RES, BSP_LCD_SWAP_XY, BSP_LCD_MIRROR_X and
      BSP_LCD_MIRROR_Y of one build. */
  datatype Orientation = Orientation(hRes: nat, vRes: nat, swapXY: bool, mirrorX: bool, mirrorY: bool)

  predicate QuarterTurn(rot: Rotation) {
    rot == Rotation90 || rot == Rotation270
  }

  /** The preprocessor table. Only the 90 and 270 degree builds have a branch of their
      own; every other build, 180 degrees included, takes the fall-through branch,
      where V_RES is defined as H_RES (so 450, not the panel's 600). */
  function Table(rot: Rotation): (o: Orientation)
    ensures o.swapXY <==> QuarterTurn(rot)
    ensures o.swapXY ==> o.hRes == VHwRes && o.vRes == HHwRes
    ensures !o.swapXY ==> o.hRes == HHwRes && o.vRes == o.hRes
    ensures !(o.mirrorX && o.mirrorY)
    ensures o.mirrorX <==> rot == Rotation90
    ensures o.mirrorY <==> rot == Rotation270
  {
    if QuarterTurn(rot) then
      if rot == Rotation270 then Orientation(VHwRes, HHwRes, true, false, true)
      else Orientation(VHwRes, HHwRes, true, true, false)
    else
      var hRes := HHwRes;
      Orientation(hRes, hRes, false, false, false)
  }

  /** The 90 degree build: 600 x 450, axes swapped, X mirrored. */
  lemma Rotation90Build()
    ensures Table(Rotation90) == Orientation(600, 450, true, true, false)
  {
  }

  /** The 270 degree build: 600 x 450, axes swapped, Y mirrored. */
  lemma Rotation270Build()
    ensures Table(Rotation270) == Orientation(600, 450, true, false, true)
  {
  }

  /** The unrotated and the 180 degree builds are the same build, and both report a
      450 x 450 screen although the panel is 450 x 600; so a quarter turn does not
      exchange the unrotated width and height, as it would on a 450 x 600 screen. */
  lemma NonQuarterTurnBuildsAreSquare(rot: Rotation)
    requires !QuarterTurn(rot)
    ensures Table(rot) == Table(Rotation0) == Orientation(450, 450, false, false, false)
    ensures Table(rot).vRes != VHwRes
    ensures Table(Rotation90).hRes != Table(rot).vRes
  {
  }

  /** The table with the evidently intended fall-through branch, where V_RES is the
      panel's vertical resolution (V_HW_RES). The quarter-turn branches are unchanged. */
  function IntendedTable(rot: Rotation): (o: Orientation)
    ensures o.swapXY <==> QuarterTurn(rot)
    ensures QuarterTurn(rot) ==> o == Table(rot)
  {
    if QuarterTurn(rot) then Table(rot)
    else Orientation(HHwRes, VHwRes, false, false, false)
  }

  /** With the intended table every build describes the 450 x 600 panel: the
      unrotated and 180 degree builds report it as it is, and a quarter turn reports
      it with width and height exchanged. */
  lemma IntendedTableDescribesPanel(rot: Rotation)
    ensures var o := IntendedTable(rot);
      && (!QuarterTurn(rot) ==> o == Orientation(450, 600, false, false, false))
      && (QuarterTurn(rot) ==> o.hRes == IntendedTable(Rotation0).vRes && o.vRes == IntendedTable(Rotation0).hRes)
      && o.hRes * o.vRes == HHwRes * VHwRes
  {
  }
}

=== FILE: driver.dfy ===
/** The vendor calls the board-support package issues (I2C and SPI bus drivers,
    esp_lcd, the RM690B0 panel driver, the CST226SE touch driver and the LVGL port),
    each recorded with its abstract outcome, and the resources a history of such
    calls leaves held. */
module Driver {
  import opened Esp
  import opened BoardConfig

  /** `esp_lcd_touch_config_t`, reduced to geometry and orientation (pins and signal
      levels are board constants). */
  datatype TouchCfg = TouchCfg(xMax: nat, yMax: nat, swapXY: bool, mirrorX: bool, mirrorY: bool)

  /** `lvgl_port_display_cfg_t`. */
  datatype PortDisplayCfg = PortDisplayCfg(
    io: Handle,
    panel: Handle,
    bufferSize: Uint32,
    doubleBuffer: bool,
    hRes: nat,
    vRes: nat,
    monochrome: bool,
    swapXY: bool,
    mirrorX: bool,
    mirrorY: bool,
    color: ColorFormat,
    buffDma: bool,
    buffSpiram: bool,
    swapBytes: bool)

  /** One vendor call and what it returned. Handles returned as NULL by the LVGL port
      (`disp`, `indev`) signal failure. */
  datatype Call =
    | I2cNewMasterBus(out: Alloc)
    | I2cDelMasterBus(bus: Handle, err: ErrCode)
    | SpiBusInitialize(err: ErrCode)
    | SpiBusFree(err: ErrCode)
    | NewPanelIoSpi(out: Alloc)
    | NewPanelRm690b0(io: Handle, bitsPerPixel: nat, out: Alloc)
    | PanelReset(panel: Handle)
    | PanelInit(panel: Handle)
    | PanelDispOnOff(panel: Handle, on: bool)
    | PanelDel(panel: Handle)
    | PanelIoDel(io: Handle)
    | SetBrightness(panel: Handle, level: Byte, err: ErrCode)
    | LvglPortInit(cfg: PortCfg, err: ErrCode)
    | LvglPortAddDisp(dispCfg: PortDisplayCfg, disp: Handle)
    | AddRoundCallback(disp: Handle)
    | TouchNewCst226se(bus: Handle, touchCfg: TouchCfg, out: Alloc)
    | LvglPortAddTouch(disp: Handle, touch: Handle, indev: Handle)

  /** A call that gives a resource back. */
  predicate Releases(c: Call) {
    c.I2cDelMasterBus? || c.SpiBusFree? || c.PanelDel? || c.PanelIoDel?
  }

  /** The hardware resources held: live I2C buses, whether the display SPI bus is
      claimed, live panel IO channels, panels and touch controllers. */
  datatype Held = Held(i2cBuses: set<Handle>, spiBus: bool, ios: set<Handle>, panels: set<Handle>, touches: set<Handle>)

  const Nothing: Held := Held({}, false, {}, {}, {})

  /** Everything `h` holds is also held by `h'`. */
  predicate Within(h: Held, h': Held) {
    && h.i2cBuses <= h'.i2cBuses
    && (h.spiBus ==> h'.spiBus)
    && h.ios <= h'.ios
    && h.panels <= h'.panels
    && h.touches <= h'.touches
  }

  /** What one call does to the resources held. A deletion reports success or failure
      only for the buses; panel and IO deletions are taken to succeed. */
  function Effect(h: Held, c: Call): (h': Held)
    ensures !Releases(c) ==> Within(h, h')
    ensures Releases(c) ==> Within(h', h)
  {
    match c
    case I2cNewMasterBus(Created(b)) => h.(i2cBuses := h.i2cBuses + {b})
    case I2cDelMasterBus(b, err) => if err == Ok then h.(i2cBuses := h.i2cBuses - {b}) else h
    case SpiBusInitialize(err) => if err == Ok then h.(spiBus := true) else h
    case SpiBusFree(err) => if err == Ok then h.(spiBus := false) else h
    case NewPanelIoSpi(Created(io)) => h.(ios := h.ios + {io})
    case NewPanelRm690b0(_, _, Created(p)) => h.(panels := h.panels + {p})
    case PanelDel(p) => h.(panels := h.panels - {p})
    case PanelIoDel(io) => h.(ios := h.ios - {io})
    case TouchNewCst226se(_, _, Created(t)) => h.(touches := h.touches + {t})
    case _ => h
  }

  /** The resources held after a history of calls, starting from power-on. */
  function HeldBy(log: seq<Call>): Held {
    if |log| == 0 then Nothing else Effect(HeldBy(log[..|log| - 1]), log[|log| - 1])
  }

  lemma HeldByAppendOne(log: seq<Call>, c: Call)
    ensures HeldBy(log + [c]) == Effect(HeldBy(log), c)
  {
    assert (log + [c])[..|log|] == log;
  }

  /** A stretch of history with no release in it only adds to what is held. */
  lemma {:induction false} NoReleaseKeepsHeld(log: seq<Call>, ext: seq<Call>)
    requires forall i | 0 <= i < |ext| :: !Releases(ext[i])
    ensures Within(HeldBy(log), HeldBy(log + ext))
    decreases |ext|
  {
    if |ext| > 0 {
      var front := ext[..|ext| - 1];
      var last := ext[|ext| - 1];
      assert log + ext == (log + front) + [last];
      NoReleaseKeepsHeld(log, front);
      HeldByAppendOne(log + front, last);
    } else {
      assert log + ext == log;
    }
  }
}

=== FILE: esp.dfy ===
/** Error codes, opaque handles and driver outcomes of the ESP-IDF layer,
    as the board-support package sees them. */
module Esp {

  /** An `esp_err_t`: zero is ESP_OK, every other value reports a failure. */
  type ErrCode = int

  const Ok: ErrCode := 0

  /** A failure code: anything but ESP_OK. */
  type Failure = e: ErrCode | e != Ok witness -1

  /** An opaque driver handle (an address in C); 0 stands for NULL. */
  type Handle = nat

  const Null: Handle := 0

  /** A handle a driver hands out on success: never NULL. */
  type Live = h: Handle | h != Null witness 1

  /** C `uint8_t`. */
  type Byte = x: int | 0 <= x < 0x100

  /** C `uint32_t`. */
  type Uint32 = x: int | 0 <= x < 0x1_0000_0000

  const Int32Min: int := -0x8000_0000
  const Int32Max: int := 0x7fff_ffff

  /** C `int` (32 bits on the ESP32-S3). */
  type Int32 = x: int | Int32Min <= x <= Int32Max

  predicate IsInt32(x: int) {
    Int32Min <= x <= Int32Max
  }

  /** Outcome of a vendor constructor that writes its out-parameter only on success. */
  datatype Alloc = Created(handle: Live) | Failed(err: Failure) {

    /** The `esp_err_t` the constructor returns. */
    function Err(): (e: ErrCode)
      ensures e == Ok <==> Created?
      ensures Failed? ==> e == err
    {
      match this
      case Created(_) => Ok
      case Failed(e) => e
    }
  }

  /** How a C function ends: it returns a value, or a failed `assert` aborts the program. */
  datatype Completion<+T> = Returned(value: T) | Aborted
}

=== FILE: panel.dfy ===
/** Panel bring-up (`bsp_display_new`): claim the SPI bus, open a panel IO channel on
    it, create the RM690B0 panel on the channel, then reset and initialise the panel;
    on a failure after the bus was claimed, release what was acquired in reverse
    order. */
module Panel {
  import opened Esp
  import opened BoardConfig
  import opened Driver
  import opened Board

  /** What the vendor calls of one bring-up would return: `spi_bus_initialize`,
      `esp_lcd_new_panel_io_spi`, `esp_lcd_new_panel_rm690b0` and `spi_bus_free`. */
  datatype PanelDrivers = PanelDrivers(spiInit: ErrCode, newIo: Alloc, newPanel: Alloc, spiFree: ErrCode)

  /** The state, the returned code, and the contents of `*ret_panel` and `*ret_io`. */
  datatype NewPanel = NewPanel(state: Bsp, err: ErrCode, panel: Handle, io: Handle)

  /** The SPI bus is usable after `bsp_spi_init`. */
  predicate SpiReady(s: Bsp, d: PanelDrivers) {
    s.g.spiInitialized || d.spiInit == Ok
  }

  /** The calls of the `err:` label, in order: delete the panel if there is one, then
      the IO channel if there is one, then free the SPI bus. */
  function UnwindCalls(panel: Handle, io: Handle, freeErr: ErrCode): seq<Call> {
    (if panel != Null then [PanelDel(panel)] else [])
      + (if io != Null then [PanelIoDel(io)] else [])
      + [SpiBusFree(freeErr)]
  }

  /** The `err:` label: release in reverse order of acquisition and return `ret`. */
  function Unwind(s: Bsp, ret: Failure, panel: Handle, io: Handle, freeErr: ErrCode): (r: NewPanel)
    ensures r.err == ret && r.panel == panel && r.io == io
    ensures r.state.g == s.g
    ensures r.state.log == s.log + UnwindCalls(panel, io, freeErr)
    ensures panel != Null ==> panel !in r.state.hw.panels
    ensures io != Null ==> io !in r.state.hw.ios
    ensures r.state.hw.spiBus <==> s.hw.spiBus && freeErr != Ok
    ensures Within(r.state.hw, s.hw)
    ensures r.state.hw.i2cBuses == s.hw.i2cBuses && r.state.hw.touches == s.hw.touches
    ensures Tracks(s) ==> Tracks(r.state)
  {
    EmitTracks(s, PanelDel(panel));
    var s1 := if panel != Null then Emit(s, PanelDel(panel)) else s;
    EmitTracks(s1, PanelIoDel(io));
    var s2 := if io != Null then Emit(s1, PanelIoDel(io)) else s1;
    EmitTracks(s2, SpiBusFree(freeErr));
    NewPanel(Emit(s2, SpiBusFree(freeErr)), ret, panel, io)
  }

  /** `s'` extends `s`'s history by at least one call. */
  predicate Appended(s: Bsp, s': Bsp) {
    s.log <= s'.log && |s.log| < |s'.log|
  }

  /** The bring-up from the panel driver on: the IO channel `io` is open. */
  function CreatePanel(s: Bsp, io: Live, color: ColorFormat, panel0: Handle, d: PanelDrivers): (r: NewPanel)
    ensures Appended(s, r.state)
    ensures r.io == io
    ensures r.err == d.newPanel.Err()
    ensures r.err == Ok ==>
      && r.panel == d.newPanel.handle
      && r.state.g == s.g.(lcdPanel := r.panel)
      && r.state.log == s.log + [NewPanelRm690b0(io, BitsPerPixel(color), d.newPanel), PanelReset(r.panel), PanelInit(r.panel)]
      && r.panel in r.state.hw.panels
      && Within(s.hw, r.state.hw)
    ensures r.err != Ok ==>
      && r.panel == panel0
      && r.state.g == s.g
      && r.state.log == s.log + [NewPanelRm690b0(io, BitsPerPixel(color), d.newPanel)] + UnwindCalls(panel0, io, d.spiFree)
      && (r.state.hw.spiBus <==> d.spiFree != Ok && s.hw.spiBus)
      && io !in r.state.hw.ios
      && (panel0 != Null ==> panel0 !in r.state.hw.panels)
    ensures Tracks(s) ==> Tracks(r.state)
  {
    EmitTracks(s, NewPanelRm690b0(io, BitsPerPixel(color), d.newPanel));
    var s1 := Emit(s, NewPanelRm690b0(io, BitsPerPixel(color), d.newPanel));
    match d.newPanel
    case Failed(e) => Unwind(s1, e, panel0, io, d.spiFree)
    case Created(panel) =>
      var s2 := s1.(g := s1.g.(lcdPanel := panel));
      EmitTracks(s2, PanelReset(panel));
      EmitTracks(Emit(s2, PanelReset(panel)), PanelInit(panel));
      NewPanel(Emit(Emit(s2, PanelReset(panel)), PanelInit(panel)), Ok, panel, io)
  }

  /** The calls of a bring-up that fails after the bus was claimed: the constructor
      attempts, then the unwind. */
  function FailedBringUpCalls(color: ColorFormat, panel0: Handle, io0: Handle, d: PanelDrivers): seq<Call> {
    [NewPanelIoSpi(d.newIo)] +
    match d.newIo
    case Failed(_) => UnwindCalls(panel0, io0, d.spiFree)
    case Created(io) => [NewPanelRm690b0(io, BitsPerPixel(color), d.newPanel)] + UnwindCalls(panel0, io, d.spiFree)
  }

  /** The calls of a successful bring-up after the bus claim: the IO channel, the
      panel on it, then reset and init of the panel. */
  function BringUpCalls(color: ColorFormat, d: PanelDrivers): seq<Call>
    requires d.newIo.Created? && d.newPanel.Created?
  {
    [NewPanelIoSpi(d.newIo), NewPanelRm690b0(d.newIo.handle, BitsPerPixel(color), d.newPanel),
     PanelReset(d.newPanel.handle), PanelInit(d.newPanel.handle)]
  }

  /** The bring-up from the IO channel on: the SPI bus has been initialised. What it
      leaves behind is stated by `CreateIoSucceeds` and `CreateIoUnwinds`. */
  function CreateIo(s: Bsp, color: ColorFormat, panel0: Handle, io0: Handle, d: PanelDrivers): (r: NewPanel)
    ensures Appended(s, r.state)
    ensures r.err == Ok <==> d.newIo.Created? && d.newPanel.Created?
    ensures r.err != Ok ==> r.err == if d.newIo.Failed? then d.newIo.err else d.newPanel.err
    ensures Tracks(s) ==> Tracks(r.state)
  {
    EmitTracks(s, NewPanelIoSpi(d.newIo));
    var s1 := Emit(s, NewPanelIoSpi(d.newIo));
    match d.newIo
    case Failed(e) => Unwind(s1, e, panel0, io0, d.spiFree)
    case Created(io) => CreatePanel(s1, io, color, panel0, d)
  }

  lemma CreateIoSucceeds(s: Bsp, color: ColorFormat, panel0: Handle, io0: Handle, d: PanelDrivers)
    requires d.newIo.Created? && d.newPanel.Created?
    ensures var r := CreateIo(s, color, panel0, io0, d);
      && r.panel == d.newPanel.handle
      && r.io == d.newIo.handle
      && r.state.g == s.g.(lcdPanel := r.panel)
      && r.state.log == s.log + BringUpCalls(color, d)
      && r.panel in r.state.hw.panels
      && r.io in r.state.hw.ios
      && Within(s.hw, r.state.hw)
  {
  }

  lemma CreateIoUnwinds(s: Bsp, color: ColorFormat, panel0: Handle, io0: Handle, d: PanelDrivers)
    requires !(d.newIo.Created? && d.newPanel.Created?)
    ensures var r := CreateIo(s, color, panel0, io0, d);
      && r.state.g == s.g
      && r.state.log == s.log + FailedBringUpCalls(color, panel0, io0, d)
      && (r.state.hw.spiBus <==> d.spiFree != Ok && s.hw.spiBus)
      && r.state.hw.i2cBuses == s.hw.i2cBuses
      && r.io == (if d.newIo.Created? then d.newIo.handle else io0)
      && (d.newIo.Created? ==> d.newIo.handle !in r.state.hw.ios)
      && r.panel == panel0
      && (panel0 != Null ==> panel0 !in r.state.hw.panels)
  {
    if d.newIo.Created? {
      var s1 := Emit(s, NewPanelIoSpi(d.newIo));
      assert CreateIo(s, color, panel0, io0, d) == CreatePanel(s1, d.newIo.handle, color, panel0, d);
    }
  }

  /** The call `bsp_spi_init` issues on a successful claim of the bus: none if the bus
      was claimed before. */
  function BusClaim(s: Bsp): seq<Call> {
    if s.g.spiInitialized then [] else [SpiBusInitialize(Ok)]
  }

  /** `bsp_display_new` as written. `panel0` and `io0` are what the caller's
      `*ret_panel` and `*ret_io` hold on entry; a failed constructor leaves them
      unchanged. The `assert` on entry is the caller's obligation. What success and a
      later failure leave behind is stated by `DisplayNewSucceeds` and
      `DisplayNewUnwinds`. */
  function DisplayNew(s: Bsp, config: DisplayConfig, color: ColorFormat, panel0: Handle, io0: Handle, d: PanelDrivers): (r: NewPanel)
    requires config.maxTransferSz > 0
    ensures Appended(s, r.state)
    ensures r.err == Ok <==> SpiReady(s, d) && d.newIo.Created? && d.newPanel.Created?
    // after the claim, a failure returns the failing constructor's own code
    ensures r.err != Ok && SpiReady(s, d) ==> r.err == if d.newIo.Failed? then d.newIo.err else d.newPanel.err
    ensures r.err == Ok || r.err == d.spiInit || r.err == d.newIo.Err() || r.err == d.newPanel.Err()
    // the bus could not be claimed: return at once, nothing to release
    ensures !SpiReady(s, d) ==>
      r == NewPanel(Emit(s, SpiBusInitialize(d.spiInit)), d.spiInit, panel0, io0)
    ensures Tracks(s) ==> Tracks(r.state)
  {
    var spi := SpiInit(s, config.maxTransferSz, d.spiInit);
    if spi.err != Ok then NewPanel(spi.state, spi.err, panel0, io0)
    else CreateIo(spi.state, color, panel0, io0, d)
  }

  /** A successful bring-up returns both handles, records the panel for brightness
      control, leaves the bus flagged and held, resets and initialises the panel last,
      does not switch the display on, and releases nothing. */
  lemma DisplayNewSucceeds(s: Bsp, config: DisplayConfig, color: ColorFormat, panel0: Handle, io0: Handle, d: PanelDrivers)
    requires config.maxTransferSz > 0
    requires SpiReady(s, d) && d.newIo.Created? && d.newPanel.Created?
    ensures var r := DisplayNew(s, config, color, panel0, io0, d);
      && r.panel == d.newPanel.handle
      && r.io == d.newIo.handle
      && r.state.g == s.g.(lcdPanel := r.panel, spiInitialized := true)
      && r.panel in r.state.hw.panels
      && r.io in r.state.hw.ios
      && r.state.hw.spiBus == (s.hw.spiBus || !s.g.spiInitialized)
      && Within(s.hw, r.state.hw)
      && r.state.log == s.log + BusClaim(s) + BringUpCalls(color, d)
      && (Honest(s) ==> Honest(r.state))
  {
    CreateIoSucceeds(SpiInit(s, config.maxTransferSz, d.spiInit).state, color, panel0, io0, d);
  }

  /** A failure after the bus was claimed unwinds: the IO channel and panel it made
      are released and the bus is freed, `lcd_panel` is left alone, and the SPI flag
      is left set. */
  lemma DisplayNewUnwinds(s: Bsp, config: DisplayConfig, color: ColorFormat, panel0: Handle, io0: Handle, d: PanelDrivers)
    requires config.maxTransferSz > 0
    requires SpiReady(s, d) && !(d.newIo.Created? && d.newPanel.Created?)
    ensures var r := DisplayNew(s, config, color, panel0, io0, d);
      && r.state.g == s.g.(spiInitialized := true)
      && r.state.log == s.log + BusClaim(s) + FailedBringUpCalls(color, panel0, io0, d)
      && (r.state.hw.spiBus <==> d.spiFree != Ok && (s.hw.spiBus || !s.g.spiInitialized))
      && r.state.hw.i2cBuses == s.hw.i2cBuses
      && (d.newIo.Created? ==> d.newIo.handle !in r.state.hw.ios)
      && r.panel == panel0
      && (panel0 != Null ==> panel0 !in r.state.hw.panels)
  {
    CreateIoUnwinds(SpiInit(s, config.maxTransferSz, d.spiInit).state, color, panel0, io0, d);
  }

  /** With the NULL-initialised outputs the display-session start passes, once the
      bus is ready (claimed now or flagged before): a failed IO channel leaves only
      the bus to free, and a failed panel releases the new IO channel exactly once,
      before the bus. */
  lemma UnwindFromNullOutputs(s: Bsp, config: DisplayConfig, color: ColorFormat, d: PanelDrivers)
    requires config.maxTransferSz > 0
    requires SpiReady(s, d)
    ensures var r := DisplayNew(s, config, color, Null, Null, d);
      && (d.newIo.Failed? ==>
            r.state.log == s.log + BusClaim(s) + [NewPanelIoSpi(d.newIo), SpiBusFree(d.spiFree)]
            && r.panel == Null && r.io == Null)
      && (d.newIo.Created? && d.newPanel.Failed? ==>
            r.state.log == s.log + BusClaim(s) + [NewPanelIoSpi(d.newIo),
                                                  NewPanelRm690b0(d.newIo.handle, BitsPerPixel(color), d.newPanel),
                                                  PanelIoDel(d.newIo.handle),
                                                  SpiBusFree(d.spiFree)]
            && r.panel == Null)
  {
    if !(d.newIo.Created? && d.newPanel.Created?) {
      DisplayNewUnwinds(s, config, color, Null, Null, d);
    }
  }

  /** The unwind deletes whatever the output parameters hold, not only what the
      bring-up made: with live `*ret_panel` and `*ret_io` on entry and an IO channel
      that cannot be created, the caller's panel and IO channel are deleted. */
  lemma UnwindDeletesCallerOutputs(s: Bsp, config: DisplayConfig, color: ColorFormat, panel0: Live, io0: Live, d: PanelDrivers)
    requires config.maxTransferSz > 0
    requires SpiReady(s, d) && d.newIo.Failed?
    ensures var r := DisplayNew(s, config, color, panel0, io0, d);
      && r.state.log == s.log + BusClaim(s) + [NewPanelIoSpi(d.newIo), PanelDel(panel0), PanelIoDel(io0), SpiBusFree(d.spiFree)]
      && panel0 !in r.state.hw.panels
      && io0 !in r.state.hw.ios
      && r.panel == panel0 && r.io == io0
  {
    DisplayNewUnwinds(s, config, color, panel0, io0, d);
  }

  /** The defect: from power-on, an IO channel that cannot be created makes the
      bring-up free the SPI bus it claimed, yet `spi_initialized` stays true, so the
      flags no longer tell the truth. */
  lemma FailedBringUpLeavesSpiFlagSet()
    ensures Honest(PowerOn)
    ensures var r := DisplayNew(PowerOn, DisplayConfig(1), Rgb565, Null, Null, PanelDrivers(Ok, Failed(-1), Failed(-1), Ok));
      && r.err == -1
      && r.state.g.spiInitialized
      && !r.state.hw.spiBus
      && !Honest(r.state)
  {
  }

  /** A bring-up on a bus flagged initialised makes no claim: its first call opens
      the IO channel. */
  lemma FlaggedBusIsNotClaimed(s: Bsp, config: DisplayConfig, color: ColorFormat, panel0: Handle, io0: Handle, d: PanelDrivers)
    requires config.maxTransferSz > 0
    requires s.g.spiInitialized
    ensures var r := DisplayNew(s, config, color, panel0, io0, d);
      |r.state.log| > |s.log| && r.state.log[|s.log|] == NewPanelIoSpi(d.newIo)
  {
    if d.newIo.Created? && d.newPanel.Created? {
      DisplayNewSucceeds(s, config, color, panel0, io0, d);
    } else {
      DisplayNewUnwinds(s, config, color, panel0, io0, d);
    }
  }

  /** The consequence: a retry skips `spi_bus_initialize` and opens the IO channel on
      a bus nobody holds. */
  lemma RetryAfterFailedBringUpUsesFreedBus(d': PanelDrivers)
    ensures var r := DisplayNew(PowerOn, DisplayConfig(1), Rgb565, Null, Null, PanelDrivers(Ok, Failed(-1), Failed(-1), Ok));
      var r' := DisplayNew(r.state, DisplayConfig(1), Rgb565, Null, Null, d');
      && !r.state.hw.spiBus
      && r'.state.log[|r.state.log|] == NewPanelIoSpi(d'.newIo)
  {
    FailedBringUpLeavesSpiFlagSet();
    var r := DisplayNew(PowerOn, DisplayConfig(1), Rgb565, Null, Null, PanelDrivers(Ok, Failed(-1), Failed(-1), Ok));
    FlaggedBusIsNotClaimed(r.state, DisplayConfig(1), Rgb565, Null, Null, d');
  }

  /** The outcome `p` with `spi_initialized` cleared and nothing else changed. */
  function ClearSpiFlag(p: NewPanel): (q: NewPanel)
    ensures q.state.g == p.state.g.(spiInitialized := false)
    ensures q.state.hw == p.state.hw && q.state.log == p.state.log
    ensures q.err == p.err && q.panel == p.panel && q.io == p.io
    ensures Tracks(p.state) ==> Tracks(q.state)
  {
    p.(state := p.state.(g := p.state.g.(spiInitialized := false)))
  }

  /** `bsp_display_new` with the evidently intended fix: once the unwind path has
      freed the SPI bus, `spi_initialized` is cleared, so the next bring-up claims the
      bus again; a free that fails leaves the bus held and the flag set. Everything
      else is as written. */
  method DisplayNewCorrected(s: Bsp, config: DisplayConfig, color: ColorFormat, panel0: Handle, io0: Handle, d: PanelDrivers)
    returns (r: NewPanel)
    requires config.maxTransferSz > 0
    ensures Appended(s, r.state)
    ensures r.err == Ok <==> SpiReady(s, d) && d.newIo.Created? && d.newPanel.Created?
    // after the claim, a failure returns the failing constructor's own code
    ensures r.err != Ok && SpiReady(s, d) ==> r.err == if d.newIo.Failed? then d.newIo.err else d.newPanel.err
    ensures r.err == Ok ==>
      && r.panel == d.newPanel.handle != Null
      && r.io == d.newIo.handle != Null
      && r.state.g == s.g.(lcdPanel := r.panel, spiInitialized := true)
      && r.panel in r.state.hw.panels
      && r.io in r.state.hw.ios
      && Within(s.hw, r.state.hw)
      && r.state.log == s.log + BusClaim(s) + BringUpCalls(color, d)
    ensures r.err != Ok ==>
      && r.state.g == s.g.(spiInitialized := SpiReady(s, d) && d.spiFree != Ok)
      && r.panel == panel0
      && (SpiReady(s, d) && d.newIo.Created? ==> d.newIo.handle !in r.state.hw.ios)
    // after an unwind the bus is held only if the free failed, and then it stays flagged
    ensures r.err != Ok && SpiReady(s, d) ==> (r.state.hw.spiBus <==> d.spiFree != Ok && (s.hw.spiBus || !s.g.spiInitialized))
    ensures r.err != Ok && SpiReady(s, d) ==> (r.state.hw.spiBus ==> r.state.g.spiInitialized)
    ensures r.err != Ok && SpiReady(s, d) && d.spiFree == Ok ==> !r.state.g.spiInitialized && !r.state.hw.spiBus
    ensures !SpiReady(s, d) ==> r.state.log == s.log + [SpiBusInitialize(d.spiInit)]
    ensures r.err != Ok && SpiReady(s, d) ==> r.state.log == s.log + BusClaim(s) + FailedBringUpCalls(color, panel0, io0, d)
    ensures Honest(s) ==> Honest(r.state)
    ensures Tracks(s) ==> Tracks(r.state)
  {
    r := DisplayNew(s, config, color, panel0, io0, d);
    if r.err == Ok {
      DisplayNewSucceeds(s, config, color, panel0, io0, d);
    } else if SpiReady(s, d) {
      DisplayNewUnwinds(s, config, color, panel0, io0, d);
      if d.spiFree == Ok {
        r := ClearSpiFlag(r);
      }
    }
  }

  /** The SPI flag a failed bring-up leaves: as written it is set once the bus was
      claimed, whatever the unwind did; corrected, it is set only if the bus could not
      be freed. */
  predicate FlagAfterFailure(s: Bsp, d: PanelDrivers, rev: Revision) {
    SpiReady(s, d) && (rev == AsWritten || d.spiFree != Ok)
  }

  /** The panel bring-up of the firmware revision `rev`: `bsp_display_new` as written,
      or corrected. Both agree on everything but the SPI flag after an unwind, and
      only the corrected one keeps the flags truthful on every path. */
  method BringUp(s: Bsp, config: DisplayConfig, color: ColorFormat, panel0: Handle, io0: Handle, d: PanelDrivers, rev: Revision)
    returns (r: NewPanel)
    requires config.maxTransferSz > 0
    ensures Appended(s, r.state)
    ensures r.err == Ok <==> SpiReady(s, d) && d.newIo.Created? && d.newPanel.Created?
    // after the claim, a failure returns the failing constructor's own code
    ensures r.err != Ok && SpiReady(s, d) ==> r.err == if d.newIo.Failed? then d.newIo.err else d.newPanel.err
    ensures r.err == Ok ==>
      && r.panel == d.newPanel.handle != Null
      && r.io == d.newIo.handle != Null
      && r.state.g == s.g.(lcdPanel := r.panel, spiInitialized := true)
      && r.panel in r.state.hw.panels
      && r.io in r.state.hw.ios
      && Within(s.hw, r.state.hw)
      && r.state.log == s.log + BusClaim(s) + BringUpCalls(color, d)
    ensures r.err != Ok ==>
      && r.state.g == s.g.(spiInitialized := FlagAfterFailure(s, d, rev))
      && r.panel == panel0
      && (SpiReady(s, d) ==> (r.state.hw.spiBus <==> d.spiFree != Ok && (s.hw.spiBus || !s.g.spiInitialized)))
      && (SpiReady(s, d) && d.newIo.Created? ==> d.newIo.handle !in r.state.hw.ios)
    ensures !SpiReady(s, d) ==> r.state.log == s.log + [SpiBusInitialize(d.spiInit)]
    ensures r.err != Ok && SpiReady(s, d) ==> r.state.log == s.log + BusClaim(s) + FailedBringUpCalls(color, panel0, io0, d)
    ensures Honest(s) && (r.err == Ok || rev == Corrected) ==> Honest(r.state)
    ensures Tracks(s) ==> Tracks(r.state)
  {
    if rev == Corrected {
      r := DisplayNewCorrected(s, config, color, panel0, io0, d);
    } else {
      r := DisplayNew(s, config, color, panel0, io0, d);
      if r.err == Ok {
        DisplayNewSucceeds(s, config, color, panel0, io0, d);
      } else if SpiReady(s, d) {
        DisplayNewUnwinds(s, config, color, panel0, io0, d);
      }
    }
  }
}

=== FILE: rounding.dfy ===
/** The invalidation callback that pads a dirty rectangle to even pixel boundaries:
    the panel moves pixels in pairs, so an area must start on an even coordinate and
    span an even number of pixels in each direction. */
module Rounding {
  import opened Esp

  /** `lv_area_t`: inclusive corner coordinates. */
  datatype Area = Area(x1: int, y1: int, x2: int, y2: int)

  /** `lv_area_get_width` and `lv_area_get_height`. */
  function Width(a: Area): int {
    a.x2 - a.x1 + 1
  }

  function Height(a: Area): int {
    a.y2 - a.y1 + 1
  }

  /** C's `v % 2` is non-zero exactly for odd `v`, negative ones included, as is Dafny's. */
  predicate Odd(v: int) {
    v % 2 != 0
  }

  /** Even origin and even extent in both directions. */
  predicate Aligned(a: Area) {
    !Odd(a.x1) && !Odd(a.y1) && !Odd(Width(a)) && !Odd(Height(a))
  }

  /** `outer` contains every pixel of `inner`. */
  predicate Covers(outer: Area, inner: Area) {
    outer.x1 <= inner.x1 && outer.y1 <= inner.y1 && inner.x2 <= outer.x2 && inner.y2 <= outer.y2
  }

  /** `lvgl_round_cb`. The origin is adjusted first, and the width and height are then
      measured from the adjusted origin. */
  function Round(a: Area): (r: Area)
    ensures Aligned(r)
    ensures Covers(r, a)
    ensures a.x1 - 1 <= r.x1 && a.y1 - 1 <= r.y1 && r.x2 <= a.x2 + 1 && r.y2 <= a.y2 + 1
  {
    var x1 := if Odd(a.x1) then a.x1 - 1 else a.x1;
    var y1 := if Odd(a.y1) then a.y1 - 1 else a.y1;
    var x2 := if Odd(Width(Area(x1, y1, a.x2, a.y2))) then a.x2 + 1 else a.x2;
    var y2 := if Odd(Height(Area(x1, y1, x2, a.y2))) then a.y2 + 1 else a.y2;
    Area(x1, y1, x2, y2)
  }

  /** Rounding an area twice is rounding it once. */
  lemma RoundIdempotent(a: Area)
    ensures Round(Round(a)) == Round(a)
  {
  }

  /** An area is left alone exactly when it is already aligned. */
  lemma RoundFixesExactlyAligned(a: Area)
    ensures Round(a) == a <==> Aligned(a)
  {
  }

  /** The padded area is the smallest aligned area containing the original one. */
  lemma RoundIsSmallestAlignedCover(a: Area, b: Area)
    requires Aligned(b) && Covers(b, a)
    ensures Covers(b, Round(a))
  {
  }

  /** Padding never leaves LVGL's 32-bit coordinate range: a coordinate only moves
      towards an even number, and there is always one within range. */
  lemma RoundStaysInInt32(a: Area)
    requires IsInt32(a.x1) && IsInt32(a.y1) && IsInt32(a.x2) && IsInt32(a.y2)
    ensures var r := Round(a);
      Int32Min <= r.x1 && Int32Min <= r.y1 && r.x2 <= Int32Max && r.y2 <= Int32Max
  {
  }
}

=== FILE: session.dfy ===
/** The display-session orchestrator (`bsp_display_start_with_config` and
    `bsp_display_start`): LVGL port, brightness, panel bring-up and registration,
    then touch bring-up and registration, in that order. The first failure returns
    NULL and nothing acquired before it is given back. */
module Session {
  import opened Esp
  import opened BoardConfig
  import opened Driver
  import opened Board
  import opened Panel
  import opened Touch
  import opened Brightness

  /** What every vendor call of one session start would return. A NULL `addDisp` or
      `addTouch` is the LVGL port's failure. */
  datatype Drivers = Drivers(
    portInit: ErrCode,
    panel: PanelDrivers,
    addDisp: Handle,
    i2cBus: Alloc,
    touch: Alloc,
    addTouch: Handle)

  /** A state and how the C function ended. */
  datatype Run = Run(state: Bsp, result: Completion<Handle>)

  /** Panel bring-up succeeds. */
  predicate PanelUp(s: Bsp, d: Drivers) {
    SpiReady(s, d.panel) && d.panel.newIo.Created? && d.panel.newPanel.Created?
  }

  /** Touch bring-up succeeds. */
  predicate TouchMade(s: Bsp, d: Drivers) {
    (s.g.i2cInitialized || d.i2cBus.Created?) && d.touch.Created?
  }

  /** Touch bring-up and registration succeed. */
  predicate TouchUp(s: Bsp, d: Drivers) {
    TouchMade(s, d) && d.addTouch != Null
  }

  /** Every step of a session start succeeds. */
  predicate AllUp(s: Bsp, d: Drivers) {
    d.portInit == Ok && PanelUp(s, d) && d.addDisp != Null && TouchUp(s, d)
  }

  /** None of `calls` gives a resource back. */
  predicate NoRelease(calls: seq<Call>) {
    forall c | c in calls :: !Releases(c)
  }

  /** None of `calls` creates a touch controller or registers touch input. */
  predicate NoTouchCall(calls: seq<Call>) {
    forall c | c in calls :: !c.TouchNewCst226se? && !c.LvglPortAddTouch?
  }

  /** A display registration agrees with the build's resolution and orientation, the
      colour format and the caller's buffering policy. */
  predicate DisplayMatches(dc: PortDisplayCfg, b: Build, cfg: DisplayCfg) {
    && dc.hRes == b.Geometry().hRes && dc.vRes == b.Geometry().vRes
    && dc.swapXY == b.Geometry().swapXY
    && dc.mirrorX == b.Geometry().mirrorX && dc.mirrorY == b.Geometry().mirrorY
    && dc.color == b.color && !dc.monochrome && !dc.swapBytes
    && dc.bufferSize == cfg.bufferSize && dc.doubleBuffer == cfg.doubleBuffer
    && dc.buffDma == cfg.buffDma && dc.buffSpiram == cfg.buffSpiram
  }

  /** A configuration handed to a driver agrees with the build: a display
      registration, a touch controller, or the panel's bits per pixel. */
  predicate CallMatches(c: Call, b: Build, cfg: DisplayCfg) {
    && (c.LvglPortAddDisp? ==> DisplayMatches(c.dispCfg, b, cfg))
    && (c.TouchNewCst226se? ==> TouchMatches(c.touchCfg, b.Geometry()))
    && (c.NewPanelRm690b0? ==> c.bitsPerPixel == BitsPerPixel(b.color))
  }

  predicate AllMatch(calls: seq<Call>, b: Build, cfg: DisplayCfg) {
    forall c | c in calls :: CallMatches(c, b, cfg)
  }

  /** Every touch registration among `calls` attaches the touch controller `touch` to
      the display `disp`. */
  predicate TouchOnDisplay(calls: seq<Call>, disp: Handle, touch: Alloc) {
    forall c | c in calls :: c.LvglPortAddTouch? ==> c.disp == disp && touch.Created? && c.touch == touch.handle
  }

  /** The registration `bsp_display_lcd_init` builds. */
  function PortDisplayConfig(b: Build, cfg: DisplayCfg, io: Handle, panel: Handle): PortDisplayCfg {
    var o := b.Geometry();
    PortDisplayCfg(io, panel, cfg.bufferSize, cfg.doubleBuffer, o.hRes, o.vRes, false,
                   o.swapXY, o.mirrorX, o.mirrorY, b.color, cfg.buffDma, cfg.buffSpiram, false)
  }

  /** The calls `bsp_display_lcd_init` issues, from first to last: the bus claim and
      panel bring-up (or its unwind), then the display switched on, registered with
      LVGL and, when registered, given the rounding callback. */
  function LcdInitCalls(s: Bsp, b: Build, cfg: DisplayCfg, d: Drivers): seq<Call> {
    if !SpiReady(s, d.panel) then [SpiBusInitialize(d.panel.spiInit)]
    else if !PanelUp(s, d) then BusClaim(s) + FailedBringUpCalls(b.color, Null, Null, d.panel)
    else
      BusClaim(s) + BringUpCalls(b.color, d.panel)
        + [PanelDispOnOff(d.panel.newPanel.handle, true),
           LvglPortAddDisp(PortDisplayConfig(b, cfg, d.panel.newIo.handle, d.panel.newPanel.handle), d.addDisp)]
        + (if d.addDisp != Null then [AddRoundCallback(d.addDisp)] else [])
  }

  /** The properties of a trace that hold of each call hold of a concatenation. */
  lemma ConcatKeeps(x: seq<Call>, y: seq<Call>, b: Build, cfg: DisplayCfg, disp: Handle, touch: Alloc)
    ensures AllMatch(x, b, cfg) && AllMatch(y, b, cfg) ==> AllMatch(x + y, b, cfg)
    ensures NoTouchCall(x) && NoTouchCall(y) ==> NoTouchCall(x + y)
    ensures NoRelease(x) && NoRelease(y) ==> NoRelease(x + y)
    ensures NoTouchCall(x) ==> TouchOnDisplay(x, disp, touch)
    ensures TouchOnDisplay(x, disp, touch) && TouchOnDisplay(y, disp, touch) ==> TouchOnDisplay(x + y, disp, touch)
  {
  }

  /** A failed bring-up hands the panel driver the build's bits per pixel and neither
      registers a display nor creates a touch controller. */
  lemma FailedBringUpMatches(s: Bsp, b: Build, cfg: DisplayCfg, d: PanelDrivers)
    ensures AllMatch(BusClaim(s) + FailedBringUpCalls(b.color, Null, Null, d), b, cfg)
    ensures NoTouchCall(BusClaim(s) + FailedBringUpCalls(b.color, Null, Null, d))
  {
    var unwind: seq<Call>;
    match d.newIo {
      case Failed(_) =>
        unwind := [NewPanelIoSpi(d.newIo), SpiBusFree(d.spiFree)];
      case Created(io) =>
        unwind := [NewPanelIoSpi(d.newIo), NewPanelRm690b0(io, BitsPerPixel(b.color), d.newPanel),
                   PanelIoDel(io), SpiBusFree(d.spiFree)];
    }
    assert FailedBringUpCalls(b.color, Null, Null, d) == unwind;
    ConcatKeeps(BusClaim(s), unwind, b, cfg, Null, d.newIo);
  }

  /** A successful display start hands every driver a configuration that agrees with
      the build, and releases nothing. */
  lemma RegisteredMatches(s: Bsp, b: Build, cfg: DisplayCfg, d: Drivers)
    requires PanelUp(s, d)
    ensures AllMatch(LcdInitCalls(s, b, cfg, d), b, cfg)
    ensures NoTouchCall(LcdInitCalls(s, b, cfg, d))
    ensures NoRelease(LcdInitCalls(s, b, cfg, d))
  {
    var dc := PortDisplayConfig(b, cfg, d.panel.newIo.handle, d.panel.newPanel.handle);
    assert DisplayMatches(dc, b, cfg);
    var head := BusClaim(s) + BringUpCalls(b.color, d.panel);
    var tail := [PanelDispOnOff(d.panel.newPanel.handle, true), LvglPortAddDisp(dc, d.addDisp)]
      + (if d.addDisp != Null then [AddRoundCallback(d.addDisp)] else []);
    assert LcdInitCalls(s, b, cfg, d) == head + tail;
    assert AllMatch(head, b, cfg);
    assert AllMatch(tail, b, cfg);
    ConcatKeeps(head, tail, b, cfg, d.addDisp, d.touch);
  }

  /** Every configuration the display start hands a driver agrees with the build, it
      never creates a touch controller, and once the panel is up it releases nothing. */
  lemma LcdInitCallsMatch(s: Bsp, b: Build, cfg: DisplayCfg, d: Drivers)
    ensures AllMatch(LcdInitCalls(s, b, cfg, d), b, cfg)
    ensures NoTouchCall(LcdInitCalls(s, b, cfg, d))
    ensures PanelUp(s, d) ==> NoRelease(LcdInitCalls(s, b, cfg, d))
  {
    if !SpiReady(s, d.panel) {
    } else if !PanelUp(s, d) {
      FailedBringUpMatches(s, b, cfg, d.panel);
    } else {
      RegisteredMatches(s, b, cfg, d);
    }
  }

  /** The tail of `bsp_display_lcd_init` once the panel is up: switch it on, register
      it with LVGL, record the registration, and attach the rounding callback unless
      the registration is NULL. */
  method RegisterDisplay(s: Bsp, b: Build, cfg: DisplayCfg, panel: Handle, io: Handle, addDisp: Handle)
    returns (r: Run)
    ensures r.state.log == s.log + [PanelDispOnOff(panel, true), LvglPortAddDisp(PortDisplayConfig(b, cfg, io, panel), addDisp)]
      + (if addDisp != Null then [AddRoundCallback(addDisp)] else [])
    ensures r.state.g == s.g.(lvDisplay := addDisp)
    ensures r.state.hw == s.hw
    ensures r.result == if addDisp == Null then Aborted else Returned(addDisp)
    ensures Tracks(s) ==> Tracks(r.state)
  {
    EmitTracks(s, PanelDispOnOff(panel, true));
    var s1 := Emit(s, PanelDispOnOff(panel, true));
    EmitTracks(s1, LvglPortAddDisp(PortDisplayConfig(b, cfg, io, panel), addDisp));
    var s2 := Emit(s1, LvglPortAddDisp(PortDisplayConfig(b, cfg, io, panel), addDisp));
    s2 := s2.(g := s2.g.(lvDisplay := addDisp));
    if addDisp == Null {
      return Run(s2, Aborted);
    }
    EmitTracks(s2, AddRoundCallback(addDisp));
    r := Run(Emit(s2, AddRoundCallback(addDisp)), Returned(addDisp));
  }

  /** `bsp_display_lcd_init`: bring the panel up with a transfer size of one draw
      buffer (so the bring-up's entry `assert` holds), switch it on, register it with
      LVGL and attach the rounding callback. A NULL registration fails the `assert`
      after it. The bring-up is that of the build's revision; as written, a failed
      bring-up that freed the bus leaves the SPI flag set. */
  method DisplayLcdInit(s: Bsp, b: Build, cfg: DisplayCfg, d: Drivers) returns (r: Run)
    ensures s.log <= r.state.log && Since(s, r.state) == LcdInitCalls(s, b, cfg, d)
    ensures r.result == Aborted <==> PanelUp(s, d) && d.addDisp == Null
    ensures r.result.Returned? ==> r.result.value == if PanelUp(s, d) then d.addDisp else Null
    ensures AllMatch(Since(s, r.state), b, cfg)
    ensures NoTouchCall(Since(s, r.state))
    ensures Honest(s) && (PanelUp(s, d) || b.revision == Corrected) ==> Honest(r.state)
    ensures Tracks(s) ==> Tracks(r.state)
    ensures PanelUp(s, d) ==>
      && NoRelease(Since(s, r.state))
      && Within(s.hw, r.state.hw)
      && r.state.g == s.g.(spiInitialized := true, lcdPanel := d.panel.newPanel.handle, lvDisplay := d.addDisp)
      && d.panel.newPanel.handle in r.state.hw.panels
      && d.panel.newIo.handle in r.state.hw.ios
    ensures !PanelUp(s, d) ==> r.state.g == s.g.(spiInitialized := FlagAfterFailure(s, d.panel, b.revision))
    // as written, an unwind that freed the bus leaves it flagged but not held
    ensures b.revision == AsWritten && SpiReady(s, d.panel) && !PanelUp(s, d) && d.panel.spiFree == Ok ==>
      r.state.g.spiInitialized && !r.state.hw.spiBus
  {
    LcdInitCallsMatch(s, b, cfg, d);
    var panel := BringUp(s, DisplayConfig(TransferSize(b)), b.color, Null, Null, d.panel, b.revision);
    if panel.err != Ok {
      SinceExtension(s, panel.state, LcdInitCalls(s, b, cfg, d));
      return Run(panel.state, Returned(Null));
    }
    r := RegisterDisplay(panel.state, b, cfg, panel.panel, panel.io, d.addDisp);
    SinceExtension(s, r.state, LcdInitCalls(s, b, cfg, d));
  }

  /** The calls `bsp_display_indev_touch_init` issues: the touch bring-up, then, if it
      succeeded, the registration of the controller with the display `disp`. */
  function IndevCalls(s: Bsp, b: Build, disp: Handle, d: Drivers): seq<Call> {
    TouchCalls(s, b, d.i2cBus, d.touch)
      + (if TouchMade(s, d) then [LvglPortAddTouch(disp, d.touch.handle, d.addTouch)] else [])
  }

  /** The touch bring-up hands the controller the display's geometry, releases
      nothing, and registers the new controller with `disp` only. */
  lemma IndevCallsMatch(s: Bsp, b: Build, cfg: DisplayCfg, disp: Handle, d: Drivers)
    ensures AllMatch(IndevCalls(s, b, disp, d), b, cfg)
    ensures NoRelease(IndevCalls(s, b, disp, d))
    ensures TouchOnDisplay(IndevCalls(s, b, disp, d), disp, d.touch)
  {
    assert TouchMatches(TouchConfig(b.Geometry()), b.Geometry());
  }

  /** `bsp_display_indev_touch_init`: bring the touch controller up into `tp` and
      register it with `disp`. The returned input device is NULL when either step
      fails; the `assert` on `tp` holds because a created controller is never NULL. */
  method IndevTouchInit(s: Bsp, b: Build, disp: Handle, d: Drivers) returns (r: Run)
    ensures s.log <= r.state.log && Since(s, r.state) == IndevCalls(s, b, disp, d)
    ensures r.result == Returned(if TouchUp(s, d) then d.addTouch else Null)
    ensures r.state.g.tp == if TouchMade(s, d) then d.touch.handle else s.g.tp
    ensures r.state.g == s.g.(i2cInitialized := r.state.g.i2cInitialized, i2cHandle := r.state.g.i2cHandle,
                              tp := r.state.g.tp)
    ensures (s.g.i2cInitialized || d.i2cBus.Created?) <==> r.state.g.i2cInitialized
    ensures r.state.g.i2cHandle == if s.g.i2cInitialized then s.g.i2cHandle else if d.i2cBus.Created? then d.i2cBus.handle else s.g.i2cHandle
    ensures TouchMade(s, d) ==> d.touch.handle in r.state.hw.touches
    ensures Within(s.hw, r.state.hw)
    ensures Honest(s) ==> Honest(r.state)
    ensures Tracks(s) ==> Tracks(r.state)
  {
    var t := TouchNew(s, b, d.i2cBus, d.touch, s.g.tp);
    var s1 := t.state.(g := t.state.g.(tp := t.touch));
    if t.err != Ok {
      SinceExtension(s, s1, IndevCalls(s, b, disp, d));
      return Run(s1, Returned(Null));
    }
    EmitTracks(s1, LvglPortAddTouch(disp, t.touch, d.addTouch));
    r := Run(Emit(s1, LvglPortAddTouch(disp, t.touch, d.addTouch)), Returned(d.addTouch));
    SinceExtension(s, r.state, IndevCalls(s, b, disp, d));
  }

  /** The last stage of a session start on the registered display `disp`: bring touch
      input up, record the input device, and return the display unless touch failed. */
  method AttachTouch(s: Bsp, b: Build, cfg: DisplayCfg, disp: Live, d: Drivers) returns (r: Run)
    ensures s.log <= r.state.log
    ensures r.result == Returned(if TouchUp(s, d) then disp else Null)
    ensures TouchUp(s, d) ==>
      r.state.g == s.g.(i2cInitialized := true,
                        i2cHandle := if s.g.i2cInitialized then s.g.i2cHandle else d.i2cBus.handle,
                        tp := d.touch.handle,
                        dispIndevTouch := d.addTouch)
    ensures r.state.g.lcdPanel == s.g.lcdPanel && r.state.g.lvDisplay == s.g.lvDisplay
    ensures r.state.g.spiInitialized == s.g.spiInitialized
    ensures AllMatch(Since(s, r.state), b, cfg)
    ensures NoRelease(Since(s, r.state))
    ensures TouchOnDisplay(Since(s, r.state), disp, d.touch)
    ensures Within(s.hw, r.state.hw)
    ensures Honest(s) ==> Honest(r.state)
    ensures Tracks(s) ==> Tracks(r.state)
  {
    var touch := IndevTouchInit(s, b, disp, d);
    IndevCallsMatch(s, b, cfg, disp, d);
    var indev := touch.result.value;
    var s1 := touch.state.(g := touch.state.g.(dispIndevTouch := indev));
    r := Run(s1, Returned(if indev == Null then Null else disp));
  }

  /** The display is registered with LVGL during a session start. */
  predicate DisplayUp(s: Bsp, d: Drivers) {
    d.portInit == Ok && PanelUp(s, d) && d.addDisp != Null
  }

  /** The part of a session start after the LVGL port and the backlight are up:
      display, then touch input. */
  method ShowDisplay(s: Bsp, b: Build, cfg: DisplayCfg, d: Drivers) returns (r: Run)
    ensures s.log <= r.state.log
    ensures r.result == Aborted <==> PanelUp(s, d) && d.addDisp == Null
    ensures r.result.Returned? ==> r.result.value == if PanelUp(s, d) && d.addDisp != Null && TouchUp(s, d) then d.addDisp else Null
    ensures PanelUp(s, d) && d.addDisp != Null && TouchUp(s, d) ==>
      r.state.g == s.g.(i2cInitialized := true,
                        i2cHandle := if s.g.i2cInitialized then s.g.i2cHandle else d.i2cBus.handle,
                        spiInitialized := true,
                        lcdPanel := d.panel.newPanel.handle,
                        lvDisplay := d.addDisp,
                        tp := d.touch.handle,
                        dispIndevTouch := d.addTouch)
    ensures !PanelUp(s, d) ==> r.state.g.lvDisplay == Null
    ensures !PanelUp(s, d) ==> r.state.g.spiInitialized == FlagAfterFailure(s, d.panel, b.revision)
    ensures AllMatch(Since(s, r.state), b, cfg)
    ensures !(PanelUp(s, d) && d.addDisp != Null) ==> NoTouchCall(Since(s, r.state))
    ensures TouchOnDisplay(Since(s, r.state), d.addDisp, d.touch)
    ensures PanelUp(s, d) ==>
      && NoRelease(Since(s, r.state))
      && Within(s.hw, r.state.hw)
      && d.panel.newPanel.handle in r.state.hw.panels
      && d.panel.newIo.handle in r.state.hw.ios
    ensures Honest(s) && (PanelUp(s, d) || b.revision == Corrected) ==> Honest(r.state)
    ensures Tracks(s) ==> Tracks(r.state)
  {
    var lcd := DisplayLcdInit(s, b, cfg, d);
    var lcdCalls := Since(s, lcd.state);
    ConcatKeeps(lcdCalls, [], b, cfg, d.addDisp, d.touch);
    if lcd.result == Aborted {
      return Run(lcd.state, Aborted);
    }
    var disp := lcd.result.value;
    var s1 := lcd.state.(g := lcd.state.g.(lvDisplay := disp));
    if disp == Null {
      return Run(s1, Returned(Null));
    }
    r := AttachTouch(s1, b, cfg, disp, d);
    var touchCalls := Since(s1, r.state);
    SinceSplit(s, s1, r.state);
    ConcatKeeps(lcdCalls, touchCalls, b, cfg, d.addDisp, d.touch);
  }

  /** `bsp_display_start_with_config`: initialise the LVGL port, the backlight, the
      display and the touch input, in that order; the first failure returns NULL, a
      NULL display registration fails the `assert` in `bsp_display_lcd_init`. */
  method StartWithConfig(s: Bsp, b: Build, cfg: DisplayCfg, d: Drivers) returns (r: Run)
    ensures s.log <= r.state.log && |Since(s, r.state)| > 0
    ensures Since(s, r.state)[0] == LvglPortInit(cfg.portCfg, d.portInit)
    ensures d.portInit != Ok ==> r == Run(Emit(s, LvglPortInit(cfg.portCfg, d.portInit)), Returned(Null))
    ensures r.result == Aborted <==> d.portInit == Ok && PanelUp(s, d) && d.addDisp == Null
    ensures r.result.Returned? ==> r.result.value == if AllUp(s, d) then d.addDisp else Null
    // success: every handle of the session is recorded
    ensures AllUp(s, d) ==>
      r.state.g == s.g.(i2cInitialized := true,
                        i2cHandle := if s.g.i2cInitialized then s.g.i2cHandle else d.i2cBus.handle,
                        spiInitialized := true,
                        lcdPanel := d.panel.newPanel.handle,
                        lvDisplay := d.addDisp,
                        tp := d.touch.handle,
                        dispIndevTouch := d.addTouch)
    // a failed display bring-up leaves `lv_display` NULL, and as written the SPI
    // flag set once the bus was claimed
    ensures d.portInit == Ok && !PanelUp(s, d) ==>
      r.state.g.lvDisplay == Null && r.state.g.spiInitialized == FlagAfterFailure(s, d.panel, b.revision)
    // every configuration handed to a driver agrees with the build and the caller
    ensures AllMatch(Since(s, r.state), b, cfg)
    // touch is attempted only on a registered display, and attached to it
    ensures !DisplayUp(s, d) ==> NoTouchCall(Since(s, r.state))
    ensures TouchOnDisplay(Since(s, r.state), d.addDisp, d.touch)
    // once the panel is up, a later failure gives nothing back
    ensures d.portInit == Ok && PanelUp(s, d) ==>
      && NoRelease(Since(s, r.state))
      && Within(s.hw, r.state.hw)
      && d.panel.newPanel.handle in r.state.hw.panels
      && d.panel.newIo.handle in r.state.hw.ios
    // the flags stay truthful unless a bring-up as written fails
    ensures Honest(s) && (d.portInit != Ok || PanelUp(s, d) || b.revision == Corrected) ==> Honest(r.state)
    ensures Tracks(s) ==> Tracks(r.state)
  {
    EmitTracks(s, LvglPortInit(cfg.portCfg, d.portInit));
    var port := LvglPortInit(cfg.portCfg, d.portInit);
    var s1 := Emit(s, port);
    if d.portInit != Ok {
      SinceExtension(s, s1, [port]);
      return Run(s1, Returned(Null));
    }
    var brightness := BrightnessInit();
    assert brightness == Ok;
    r := ShowDisplay(s1, b, cfg, d);
    var rest := Since(s1, r.state);
    SinceExtension(s, r.state, [port] + rest);
    ConcatKeeps([port], rest, b, cfg, d.addDisp, d.touch);
  }

  /** `bsp_display_start`: a session start with the board's defaults: the LVGL port's
      default configuration, a draw buffer of one tenth of the screen, double
      buffered, in DMA-capable internal memory. */
  method Start(s: Bsp, b: Build, d: Drivers) returns (r: Run)
    ensures s.log <= r.state.log && |Since(s, r.state)| > 0
    ensures Since(s, r.state)[0] == LvglPortInit(PortInitConfig, d.portInit)
    ensures r.result == Aborted <==> d.portInit == Ok && PanelUp(s, d) && d.addDisp == Null
    ensures r.result.Returned? ==> r.result.value == if AllUp(s, d) then d.addDisp else Null
    ensures forall c | c in Since(s, r.state) && c.LvglPortAddDisp? ::
      && c.dispCfg.bufferSize == DrawBuffSize(b.Geometry())
      && c.dispCfg.doubleBuffer && c.dispCfg.buffDma && !c.dispCfg.buffSpiram
      && c.dispCfg.hRes == b.Geometry().hRes && c.dispCfg.vRes == b.Geometry().vRes
    ensures d.portInit == Ok && PanelUp(s, d) ==> NoRelease(Since(s, r.state))
    ensures Honest(s) && (d.portInit != Ok || PanelUp(s, d) || b.revision == Corrected) ==> Honest(r.state)
    ensures Tracks(s) ==> Tracks(r.state)
  {
    r := StartWithConfig(s, b, DefaultDisplayCfg(b), d);
  }
}

=== FILE: touch.dfy ===
/** Touch bring-up (`bsp_touch_new`): make sure the I2C bus is up, then create the
    CST226SE controller on it with the display's resolution and orientation. */
module Touch {
  import opened Esp
  import opened DisplayGeometry
  import opened BoardConfig
  import opened Driver
  import opened Board

  /** The touch configuration the board macros produce. */
  function TouchConfig(o: Orientation): TouchCfg {
    TouchCfg(o.hRes, o.vRes, o.swapXY, o.mirrorX, o.mirrorY)
  }

  /** A touch configuration agrees with the display's resolution and orientation. */
  predicate TouchMatches(cfg: TouchCfg, o: Orientation) {
    && cfg.xMax == o.hRes && cfg.yMax == o.vRes
    && cfg.swapXY == o.swapXY && cfg.mirrorX == o.mirrorX && cfg.mirrorY == o.mirrorY
  }

  /** The state, the returned code and the contents of `*ret_touch`. */
  datatype NewTouch = NewTouch(state: Bsp, err: ErrCode, touch: Handle)

  /** The calls `bsp_touch_new` issues: the bus creation unless the bus is already up,
      then, if the bus is up, the controller on it. */
  function TouchCalls(s: Bsp, b: Build, i2cOut: Alloc, touchOut: Alloc): seq<Call> {
    if s.g.i2cInitialized then [TouchNewCst226se(s.g.i2cHandle, TouchConfig(b.Geometry()), touchOut)]
    else if i2cOut.Failed? then [I2cNewMasterBus(i2cOut)]
    else [I2cNewMasterBus(i2cOut), TouchNewCst226se(i2cOut.handle, TouchConfig(b.Geometry()), touchOut)]
  }

  /** `bsp_touch_new`. Its configuration argument is ignored, so it does not appear;
      `i2cOut` and `touchOut` are what `i2c_new_master_bus` and
      `esp_lcd_touch_new_i2c_cst226se` would do, and `touch0` is `*ret_touch` on entry. */
  function TouchNew(s: Bsp, b: Build, i2cOut: Alloc, touchOut: Alloc, touch0: Handle): (r: NewTouch)
    ensures r.state.log == s.log + TouchCalls(s, b, i2cOut, touchOut)
    ensures r.err == Ok <==> (s.g.i2cInitialized || i2cOut.Created?) && touchOut.Created?
    ensures r.touch == if r.err == Ok then touchOut.handle else touch0
    ensures r.state.g == s.g.(i2cInitialized := r.state.g.i2cInitialized, i2cHandle := r.state.g.i2cHandle)
    ensures Honest(s) ==> Honest(r.state)
    // the bus could not be brought up: no touch controller is attempted
    ensures !s.g.i2cInitialized && i2cOut.Failed? ==>
      r.err == i2cOut.err && r.state.log == s.log + [I2cNewMasterBus(i2cOut)]
    // otherwise the controller is created on the package's bus handle, with the
    // display's resolution and swap/mirror flags
    ensures s.g.i2cInitialized || i2cOut.Created? ==>
      && r.state.g.i2cInitialized
      && r.err == touchOut.Err()
      && |r.state.log| > |s.log|
      && var last := r.state.log[|r.state.log| - 1];
         && last.TouchNewCst226se?
         && last.bus == r.state.g.i2cHandle
         && last.out == touchOut
         && TouchMatches(last.touchCfg, b.Geometry())
    ensures touchOut.Created? && (s.g.i2cInitialized || i2cOut.Created?) ==> touchOut.handle in r.state.hw.touches
    ensures Within(s.hw, r.state.hw)
    ensures Tracks(s) ==> Tracks(r.state)
  {
    var init := I2cInit(s, i2cOut);
    if init.err != Ok then NewTouch(init.state, init.err, touch0)
    else
      var cfg := TouchConfig(b.Geometry());
      var bus := I2cGetHandle(init.state, i2cOut);
      EmitTracks(bus.state, TouchNewCst226se(bus.handle, cfg, touchOut));
      var s1 := Emit(bus.state, TouchNewCst226se(bus.handle, cfg, touchOut));
      NewTouch(s1, touchOut.Err(), if touchOut.Created? then touchOut.handle else touch0)
  }

  /** End to end for the 90 degree build: the controller is told to swap the axes and
      mirror X only. */
  lemma Rotation90TouchFlags(s: Bsp, c: ColorFormat, rev: Revision, i2cOut: Alloc, touchOut: Alloc, touch0: Handle)
    requires s.g.i2cInitialized || i2cOut.Created?
    ensures var r := TouchNew(s, Build(Rotation90, c, rev), i2cOut, touchOut, touch0);
      var cfg := r.state.log[|r.state.log| - 1].touchCfg;
      cfg == TouchCfg(600, 450, true, true, false)
  {
  }
}
